=== FILE: README.md ===
# Transfer saga of the briefcash transfer service

This project models the transfer core of the briefcash transfer service in Dafny and proves properties about it. A merchant asks for an interbank transfer, and the service carries the request through five steps:

1. **Fee lookup.** The service looks up the merchant's fee for the channel in the cache. On a miss it reads the store and writes the fee back to the cache; an error from that write is ignored.
2. **Cache debit.** It debits the merchant's cached balance under a per-merchant lock.
3. **Store commit.** In one all-or-nothing store transaction it:
   - inserts a recipient row and a transfer row;
   - debits the merchant's account only when the balance covers the total;
   - appends two debit ledger rows, one for the amount and one for the fee.
4. **Publish.** It publishes a transfer trigger to the message-bus topic of the destination bank. A bank without routing falls back to bank `"14"`. The topic comes from the routing lookup with its read lock released correctly (see "## Findings"). As written, that lookup releases its read lock with the writer's `Unlock`, which is a fatal runtime error. So a request of the program as written that gets this far stops here, after the cache debit and a store commit, with no response and no compensation. Whether the store commit can happen as written depends on `BalanceRepo.BalanceRepository.Debit` (see "## Left out").
5. **Compensation.** A failed commit is answered by crediting the cache back. A failed publish is answered by crediting the cache back and then running a second store transaction that:
   - marks the transfer `FAILED_PUBLISH`;
   - credits the account;
   - writes a refund (credit) ledger row.

Each collaborator is state:

| collaborator | modelled as |
|---|---|
| cache | `RedisRepo.RedisRepository`: the `balance` hash, one hash per fee key, and the `pending_transaction` set; every value is text |
| store | `Store.Database`: accounts, transfers, recipients, ledger, fee table, routing table |
| routing table | `PartnerService.BankPartner` |
| message bus | `TransferSaga.MessageBus` |

A store transaction is a snapshot of the store, then its steps, then a restore of the snapshot on error.

Lock acquisition, cache, store and bus failures are boolean inputs, gathered in the `Faults` datatypes.

Money is an integer number of hundredths. `FormatMoney` writes an amount with two decimals, as the cache does. `ParseMoney` reads it back, and the round trip is proved.

The whole request is the pure function `TransferSaga.Saga` over a `World`, which holds:
- the cache hashes;
- the store;
- the published messages.

The imperative `TransferSaga.TransferService.TransferRequest` is proved to produce exactly the `World` and the response that `Saga` gives. The lemmas in `SagaProperties` state what happens on each path.

`Saga` and `TransferRequest` publish through the corrected routing lookup, `PartnerService.BankPartner.GetBankConfig`. The paths that reach the publish step are therefore those of the evidently intended program. They include the lemmas `SagaProperties.AfterDebitSuccess`, `SagaProperties.SuccessfulTransfer` and `SagaProperties.FailedPublishLeavesStoreDebited`. They also rest on the store debit succeeding when the balance covers the total, which is the success condition of its UPDATE; as written, the debit's chained `Scan` may make every commit fail (see "## Left out"). Where a commit does happen, the program as written aborts at the routing lookup on each of those paths (`PartnerService.GetBankConfigAsWrittenAborts`).

Several behaviours are modelled as the code has them:

- **An exact debit is refused but not refunded.** A cache debit that leaves the balance at exactly 0 is answered as "balance not available". The debit is not refunded (`ExactDebitIsReportedNotAvailable`).
- **The fee-miss answer mixes code and message.** When neither the cache nor the store yields a fee, the answer is the data-not-found code with the internal-error message (`FeeMissAnswersDataNotFound`).
- **New transfers carry a response message as their status.** A new transfer row is stored with the status "Transaction is being processed", which is the pending response message, and not `PENDING`.
- **The compensation refuses new transfers.** (This and the next behaviour assume the compensation's find reaches the transfer table; see `TransferRepo.TransferRepository.FindByRefNo` under "## Left out".) It refuses exactly the status "Transaction is being processed". So after a failed publish, the cache is credited back but the store keeps the debit, the transfer row and both ledger rows (`FailedPublishLeavesStoreDebited`).
- **A settled transfer can be credited twice.** The compensation's status update only changes a `PENDING` row. A transfer in any other status (for example `DONE`) therefore keeps its status, and running the compensation again credits the merchant a second time (`CompensatingSettledTransferCreditsTwice`).

## Model

| member | source | states |
|---|---|---|
| Constants.ConstantTablesWellFormed | internal/constants/constant_var.go:8-43 | The nine response codes and the five transfer statuses are pairwise distinct, every code has a message, the pending, internal-error, balance-not-available and insufficient-funds answers use the table's messages, and the credit and debit markers differ. |
| Constants.PendingMessageIsNotAStatus | internal/constants/constant_var.go:20-43 | The pending response message, which new transfers carry as status, differs from both `PENDING` and `FAILED_PUBLISH`. |
| Money.FormatMoney | internal/service/transfer_service.go:137 | Text with two decimals, starting with '-' exactly for a negative amount. |
| Money.ParseMoney | internal/service/transfer_service.go:301-307 | Only non-empty text parses; a leading '-' gives a non-positive amount and a leading digit a non-negative one. |
| Money.MoneyRoundTrip | internal/repository/repository-redis/redis_repository.go:163 | Parsing what FormatMoney wrote gives back the same amount. |
| Money.UnsignedRoundTrip | internal/repository/repository-redis/redis_repository.go:163 | The unsigned two-decimal text of an amount parses back to it. |
| Indexing.IndexByKeys | internal/service/partner_service.go:48-53 | A map built from rows has exactly the rows' keys. |
| Indexing.IndexByLastWins | internal/repository/repository-redis/redis_repository.go:94-97 | The last row with a key determines that key's entry. |
| Indexing.IndexByEntryFromRow | internal/service/partner_service.go:50-52 | Every entry comes from some row with that key. |
| BalanceRepo.BalanceRepository.Debit | internal/repository/balance_repository.go:28-40 | Succeeds iff the account exists and covers the total; then only that account drops by the total and stays non-negative. No match gives -1 with an insufficient-balance error and no change. |
| BalanceRepo.BalanceRepository.Credit | internal/repository/balance_repository.go:42-55 | Adds the amount to the named account only and returns the new balance. A missing account gives -1 with an error. |
| BalanceRepo.BalanceRepository.FindByCode | internal/repository/balance_repository.go:57-68 | A store error is an error. Otherwise the merchant's account, or no account (not an error) when it is missing. |
| BalanceRepo.BalanceRepository.WithTransaction | internal/repository/balance_repository.go:70-72 | A new repository bound to the transaction's store. |
| BalanceRepo.FindAllBalances | internal/repository/merchant_balance_repository.go:25-38 | On success the listing holds every account with its balance and nothing else. |
| TransferRepo.FirstByPartnerRef | internal/repository/transfer_repository.go:34-45 | Id and status of the first transfer with the reference; the zero id and empty status when there is none. |
| TransferRepo.SetStatusWherePending | internal/repository/transfer_repository.go:47-53 | Only a row with that id and status `PENDING` takes the new status; every other row is unchanged. |
| TransferRepo.UpdateWithoutPendingMatchIsNoOp | internal/repository/transfer_repository.go:48-52 | An update whose id matches no `PENDING` row, including an unknown id, changes nothing. |
| TransferRepo.TransferRepository.Save | internal/repository/transfer_repository.go:27-32 | Appends the transfer with the next id; a store error changes nothing. |
| TransferRepo.TransferRepository.FindByRefNo | internal/repository/transfer_repository.go:34-45 | Just the id and status of the first transfer with the reference, or a store error. |
| TransferRepo.TransferRepository.Update | internal/repository/transfer_repository.go:47-53 | No error and the status changes only where a row is `PENDING`; a store error changes nothing. |
| TransferRepo.TransferRepository.WithTransaction | internal/repository/transfer_repository.go:55-60 | A nil transaction gives back the same repository; otherwise a new one bound to the transaction. |
| FeeSettingRepo.SortByMerchantCorrect | internal/repository/fee_setting_repository.go:31 | Sorting by merchant code yields an ascending permutation of the rows. |
| FeeSettingRepo.FindAll | internal/repository/fee_setting_repository.go:28-38 | Either a store error, or all rows (as a permutation) in ascending merchant-code order. |
| FeeSettingRepo.FirstFee | internal/repository/fee_setting_repository.go:42 | The first row matching both merchant and channel; none when no row does. |
| FeeSettingRepo.FindByCodeAndChannel | internal/repository/fee_setting_repository.go:40-51 | A store error is an error. Otherwise the first row matching both codes, or the zero fee (total charge 0) without an error. |
| PartnerService.RouteAfterLoad | internal/service/partner_service.go:32-76 | After a load, a known bank routes to its last row. An unknown bank routes to the last row of bank "14", or to the zero entry when there is none. |
| PartnerService.GetBankConfigAsWrittenAborts | internal/service/partner_service.go:60-62 | As written, the lookup never returns a route. It releases its read lock with the writer's unlock, so it aborts whenever it takes the read lock; while a writer holds the mutex it waits instead. |
| PartnerService.GetBankConfigLocked | internal/service/partner_service.go:57-76 | With read locks released by the reader's unlock, the lookup returns the route and leaves the mutex as it found it. It only waits when a writer holds the mutex. |
| PartnerService.BankPartner.LoadAllBankPartner | internal/service/partner_service.go:32-55 | Replaces the table with the map built from the routing rows, a later row winning. A store error leaves the old table. |
| PartnerService.BankPartner.GetBankConfig | internal/service/partner_service.go:57-76 | The routing entry, with the fallback, that the correctly locked lookup returns. |
| Store.Database.Restore | internal/service/transfer_service.go:142 | Aborting a transaction puts every table back to the snapshot. |
| PersistenceManager.BuildStatement | internal/manager/transfer_persistent_manager.go:131-143 | A ledger row carries the transfer id, partner reference, merchant, channel, amount, type, description and balance-after it is given. |
| PersistenceManager.TransferLedgerRow | internal/manager/transfer_persistent_manager.go:112-115 | A `DB` row of minus the transferred amount, described by the remarks. |
| PersistenceManager.AdminFeeLedgerRow | internal/manager/transfer_persistent_manager.go:117-120 | A `DB` row of minus the fee's total charge, described as "Service Fee". |
| PersistenceManager.RefundLedgerRow | internal/manager/transfer_persistent_manager.go:122-129 | A `CR` row of the refund's magnitude, never negative, described with the partner reference. |
| PersistenceManager.LedgerRowsBalance | internal/manager/transfer_persistent_manager.go:112-129 | The two debit rows together record minus (amount + fee), and a refund of that total cancels them. |
| PersistenceManager.NewRecipient | internal/manager/transfer_persistent_manager.go:40-43 | The recipient is the request's beneficiary account and bank. |
| PersistenceManager.NewTransferRecord | internal/manager/transfer_persistent_manager.go:53-73 | A new transfer has the pending message as status (neither `PENDING` nor `FAILED_PUBLISH`), currency IDR and no reversal or reconcile flag. It has no bank reference, the given system reference, amount and merchant, and the channel as type. |
| PersistenceManager.TransferPersistenceManager.CreateRecipient | internal/manager/transfer_persistent_manager.go:39-50 | Appends exactly that recipient, or returns the error and appends nothing. |
| PersistenceManager.TransferPersistenceManager.CreateTransfer | internal/manager/transfer_persistent_manager.go:53-80 | Appends the new transfer record with the next id, or returns the error and appends nothing. |
| PersistenceManager.TransferPersistenceManager.FindTransferByPartnerReference | internal/manager/transfer_persistent_manager.go:82-88 | The first transfer's id and status for the reference, or the error. |
| PersistenceManager.TransferPersistenceManager.UpdateTransferStatus | internal/manager/transfer_persistent_manager.go:90-92 | The conditional status update, or the error and no change. |
| PersistenceManager.TransferPersistenceManager.DebitMerchant | internal/manager/transfer_persistent_manager.go:95-101 | Any error gives balance 0 and no change. Success, iff the account covers the total, debits exactly that account and returns its new non-negative balance. |
| PersistenceManager.TransferPersistenceManager.CreditMerchant | internal/manager/transfer_persistent_manager.go:103-109 | Any error, including a missing account, gives balance 0 and no change. Success adds the amount and returns the new balance. |
| PersistenceManager.TransferPersistenceManager.CreateTransferLedger | internal/manager/transfer_persistent_manager.go:112-115 | Appends the principal debit row, or returns the error and appends nothing. |
| PersistenceManager.TransferPersistenceManager.CreateAdminFeeLedger | internal/manager/transfer_persistent_manager.go:117-120 | Appends the fee debit row, or returns the error and appends nothing. |
| PersistenceManager.TransferPersistenceManager.CreateRefundLedger | internal/manager/transfer_persistent_manager.go:122-129 | Appends the refund credit row, or returns the error and appends nothing. |
| PersistenceManager.TransferPersistenceManager.SaveStatement | internal/repository/ledger_repository.go:25-30 | Appends the row to the ledger, or returns the error and appends nothing. |
| RedisRepo.FeeKeyIsNotInjective | internal/repository/repository-redis/redis_repository.go:49 | The key layout does not separate codes that contain ':': two different (merchant, channel) pairs share a key. |
| RedisRepo.FieldAmount | internal/repository/repository-redis/redis_repository.go:131-137 | A missing field, or a present one whose text does not parse, reads as 0; a field that parses reads as its value. |
| RedisRepo.DecodeFee | internal/repository/repository-redis/redis_repository.go:139-148 | Merchant and channel are echoed from the arguments; each amount is its field read with parse-or-0. |
| RedisRepo.DecodeEncodedFee | internal/repository/repository-redis/redis_repository.go:118-149 | A hash holding a fee's five written fields decodes to that fee's amounts. |
| RedisRepo.FormattedFieldReads | internal/repository/repository-redis/redis_repository.go:131-137 | A field written with two decimals reads back as the same amount. |
| RedisRepo.FeeCommands | internal/repository/repository-redis/redis_repository.go:48-60 | One queued HSET per listed fee setting. |
| RedisRepo.FeeCommandAt | internal/repository/repository-redis/redis_repository.go:48-59 | The i-th queued command caches the i-th setting. |
| RedisRepo.FeeCommandKeys | internal/repository/repository-redis/redis_repository.go:49 | Every queued command uses its setting's fee key. |
| RedisRepo.ApplyAllLastWins | internal/repository/repository-redis/redis_repository.go:47-64 | In a pipeline, the fields of the last command on a key survive the batch. |
| RedisRepo.FeeListLastWins | internal/repository/repository-redis/redis_repository.go:42-67 | After a bulk fee load, a key reads as the last listed setting with that key. |
| RedisRepo.LookupBalance | internal/repository/repository-redis/redis_repository.go:151-164 | Succeeds iff there is no server error and the field exists and parses. A missing field is a not-found error. |
| RedisRepo.IncrementField | internal/repository/repository-redis/redis_repository.go:173-179 | Fails, with no change, on a write error or a field that is not a number. Otherwise only that field changes, and it is created if missing. |
| RedisRepo.IncrementFieldReadsBack | internal/repository/repository-redis/redis_repository.go:174 | After an increment, the field reads as its old value (0 when missing) plus the amount. |
| RedisRepo.WrittenBalanceReads | internal/repository/repository-redis/redis_repository.go:166-171 | A balance written as text reads back as the same amount. |
| RedisRepo.ReadFee | internal/repository/repository-redis/redis_repository.go:118-149 | A server error, or a missing or empty hash, is an error; otherwise the decoded fee. |
| RedisRepo.SetFeeThenRead | internal/repository/repository-redis/redis_repository.go:69-85 | Reading a fee right after writing it gives back the same fee. |
| RedisRepo.RedisRepository.SetListFee | internal/repository/repository-redis/redis_repository.go:42-67 | An empty list is an error. A failed exec writes nothing. Otherwise every fee hash is written, in list order. |
| RedisRepo.RedisRepository.SetFee | internal/repository/repository-redis/redis_repository.go:69-85 | Merges the five fields into the fee's hash, or writes nothing on error. |
| RedisRepo.RedisRepository.SetBalance | internal/repository/repository-redis/redis_repository.go:87-106 | An empty list is an error. A failed exec writes nothing. Otherwise each merchant's balance text goes into the one `balance` hash, a later row winning. |
| RedisRepo.RedisRepository.SetPendingStatus | internal/repository/repository-redis/redis_repository.go:108-116 | Adds the id to the pending set, or changes nothing on error. |
| RedisRepo.RedisRepository.DeletePendingStatus | internal/repository/repository-redis/redis_repository.go:181-189 | Removes the id from the pending set, or changes nothing on error. |
| RedisRepo.RedisRepository.FindByCodeAndChannel | internal/repository/repository-redis/redis_repository.go:118-149 | A server error is a server error; a missing or empty hash is a not-found error. Otherwise merchant and channel are echoed and the amounts are the hash's fields, each read with parse-or-0. |
| RedisRepo.RedisRepository.FindByMerchantCode | internal/repository/repository-redis/redis_repository.go:151-164 | The parsed balance field; a missing field is a not-found error. |
| RedisRepo.RedisRepository.UpdateBalance | internal/repository/repository-redis/redis_repository.go:166-171 | Overwrites only that merchant's field, or nothing on error. |
| RedisRepo.RedisRepository.RefundBalance | internal/repository/repository-redis/redis_repository.go:173-179 | Increments the merchant's field by the amount, as `IncrementField` states. |
| RedisService.ListingEmptyIff | internal/service/transfer_redis_service.go:71-79 | A listing of the accounts is empty iff there are no accounts, so a balance load fails as empty exactly then. |
| RedisService.LoadedBalanceReadsStore | internal/service/transfer_redis_service.go:63-86 | After a balance load, every merchant's field reads back as its store balance. |
| RedisService.LoadedBalanceKeys | internal/service/transfer_redis_service.go:63-86 | A balance load writes exactly one field per store account. |
| RedisService.LoadedFeeReadsTableRow | internal/service/transfer_redis_service.go:38-61 | After a fee load, a key reads as a table row with that key, and as the row itself when the key is unique. |
| RedisService.CacheDebit | internal/service/transfer_redis_service.go:109-161 | Every failed debit leaves the hash unchanged and returns 0 or -1. |
| RedisService.CacheDebitOutcome | internal/service/transfer_redis_service.go:109-161 | Lock, read and write failures return 0 and change nothing. A short balance returns -1 and changes nothing. Otherwise the field reads as current minus amount (never negative), which is returned, and no other field changes. |
| RedisService.CacheRefund | internal/service/transfer_redis_service.go:163-185 | A lock failure changes nothing; otherwise the field is incremented by the amount. |
| RedisService.DebitThenRefundRestores | internal/service/transfer_redis_service.go:146-179 | A successful debit followed by a successful refund of the same amount restores the merchant's balance and keeps every other field. |
| RedisService.TransferRedisService.LoadFeeSetting | internal/service/transfer_redis_service.go:38-61 | A store error, an empty table or a failed exec writes nothing. Otherwise the cache holds the table in merchant-code order. |
| RedisService.TransferRedisService.LoadBalance | internal/service/transfer_redis_service.go:63-86 | A store error, no accounts or a failed exec writes nothing. Otherwise every account's field reads as its store balance and every other field is kept. |
| RedisService.TransferRedisService.GetFeeSetting | internal/service/transfer_redis_service.go:88-97 | Succeeds iff the fee hash is cached and non-empty and there is no error; a server error is passed on as such, a miss as not-found. On success merchant and channel are echoed and the amounts are the cached fields, each read with parse-or-0. |
| RedisService.TransferRedisService.SetFeeSetting | internal/service/transfer_redis_service.go:99-107 | Writes the fee, after which reading it gives it back; on error the answer is a server error and nothing is written. |
| RedisService.TransferRedisService.DebitBalance | internal/service/transfer_redis_service.go:109-161 | The balance, error and new hash are those of `CacheDebit`. |
| RedisService.TransferRedisService.RefundBalance | internal/service/transfer_redis_service.go:163-185 | The error and new hash are those of `CacheRefund`. |
| TransferSaga.ParseAmount | internal/service/transfer_service.go:301-307 | Succeeds iff the text parses, with its value; otherwise an invalid-amount error. |
| TransferSaga.SumAmount | internal/service/transfer_service.go:206-210 | The total charge plus the parsed amount; an unparsable amount counts as 0. |
| TransferSaga.SumAmountOfFormatted | internal/service/transfer_service.go:206-210 | A two-decimal amount is reserved in full on top of the fee. |
| TransferSaga.ChannelPrefix | internal/service/transfer_service.go:249-253 | The first min(length, 3) characters of the channel (characters, not bytes; see "## Left out"). |
| TransferSaga.GeneratedReferenceNumber | internal/service/transfer_service.go:243-256 | Channel prefix, '-', bank code, '-', timestamp, and nothing else. |
| TransferSaga.HandleTransferResponse | internal/service/transfer_service.go:187-204 | Echoes code, message, references and date. With a fee, the info holds exactly channel, a service fee that reads back as the total charge, and balance-after; without one it is empty. |
| TransferSaga.PublishOutcome | internal/service/transfer_service.go:212-241 | A failure publishes nothing. Success appends one message to the destination bank's routed topic, keyed by the partner reference. |
| TransferSaga.MessageBus.Publish | internal/service/transfer_service.go:240 | Appends the message, or changes nothing and reports the failure. |
| TransferSaga.PersistOutcomeSpec | internal/service/transfer_service.go:141-185 | The transaction commits iff the amount parses, no write fails and the account covers the total. An error leaves the store as it was. A commit debits the account (non-negative) and appends one recipient and one transfer row (pending message, next id, the reference). It also appends two ledger rows summing to minus (amount + fee) with the new balance, and leaves fees and routing unchanged. |
| TransferSaga.PublishFailureOutcomeSpec | internal/service/transfer_service.go:258-299 | A find error, or any error, changes nothing. `FAILED_PUBLISH` is a no-op success, and the new-transfer status is an invalid-transition error. Any other status succeeds iff no write fails and the account exists, and then applies the conditional mark, the credit and one refund row. |
| TransferSaga.CompensationWritesSpec | internal/service/transfer_service.go:281-297 | The compensation writes succeed iff no step fails and the account exists. They then change only transfers, that account and the ledger; an error changes nothing. |
| TransferSaga.FeeLookup | internal/service/transfer_service.go:57-86 | The cached fee when the cache read succeeds, else the store's. There is no fee iff both the cache read and the store read fail. |
| TransferSaga.TransferService.TransferRequest | internal/service/transfer_service.go:46-139 | The new cache, store, bus and the response are exactly those of `Saga`. |
| TransferSaga.TransferService.GetFee | internal/service/transfer_service.go:57-86 | Returns `FeeLookup` and leaves the fee hashes as `FeesAfterLookup`. |
| TransferSaga.TransferService.ContinueAfterDebit | internal/service/transfer_service.go:107-138 | The new state and response are those of `AfterDebit`. |
| TransferSaga.TransferService.RefundAndCompensate | internal/service/transfer_service.go:121-134 | The new state and response are those of `AfterPublishFailure`: a refund, then the compensation only when the refund succeeded. |
| TransferSaga.TransferService.PublishMessage | internal/service/transfer_service.go:212-241 | The bus and error are those of `PublishOutcome` with the routing table. |
| TransferSaga.TransferService.PersistTransfer | internal/service/transfer_service.go:141-185 | The store and error are those of `PersistOutcome`; an error leaves the store as it was. |
| TransferSaga.TransferService.PersistSteps | internal/service/transfer_service.go:148-183 | Returns `PersistOutcome`'s error and, on success, its state. |
| TransferSaga.TransferService.DebitAndRecord | internal/service/transfer_service.go:167-181 | The debit fails with a server error, or with an insufficient-balance error when the account does not cover the total. Otherwise it succeeds iff both ledger writes do, and then debits the account and appends the two rows with the new balance. |
| TransferSaga.TransferService.HandlePublishFailure | internal/service/transfer_service.go:258-299 | The store and error are those of `PublishFailureOutcome`. |
| TransferSaga.TransferService.CompensationSteps | internal/service/transfer_service.go:266-297 | Returns `PublishFailureOutcome`'s error and, on success, its state. |
| TransferSaga.TransferService.CompensationWriteSteps | internal/service/transfer_service.go:281-297 | Returns `CompensationWrites`' error and, on success, its state. |
| SagaProperties.FeeMissAnswersDataNotFound | internal/service/transfer_service.go:57-65 | With no fee, nothing changes and the answer is the data-not-found code with the internal-error message and no reference. |
| SagaProperties.AfterDebitIgnoresFees | internal/service/transfer_service.go:107-138 | The saga after the debit depends neither on the fee hashes nor on the write-back outcome. |
| SagaProperties.WriteBackErrorIsIgnoredOnceFeeKnown | internal/service/transfer_service.go:67-85 | For a given fee, the write-back error changes only the fee hashes. |
| SagaProperties.WriteBackErrorIsIgnored | internal/service/transfer_service.go:67-85 | Whether the write-back fails changes neither the response nor the balances, the store or the bus. |
| SagaProperties.ExactDebitIsReportedNotAvailable | internal/service/transfer_service.go:93-97 | A debit of the whole balance is answered as balance-not-available with no reference. The cache balance stays 0, and the store and bus are untouched. |
| SagaProperties.FailedDebitChangesNoBalance | internal/service/transfer_service.go:93-101 | A failed debit is answered as balance-not-available or insufficient-funds and changes no balance, store row or message. |
| SagaProperties.SuccessfulDebitContinues | internal/service/transfer_service.go:93-110 | A debit that leaves a positive balance writes it back and continues with the commit. |
| SagaProperties.FailedCommitRefundsCache | internal/service/transfer_service.go:110-117 | A failed commit refunds the cache to its old balance, leaves store and bus alone, and answers internal error with no reference. |
| SagaProperties.AppendedRowIsFirstWithRef | internal/repository/transfer_repository.go:37 | A transfer appended with a new reference is the first with it. |
| SagaProperties.FailedPublishLeavesStoreDebited | internal/service/transfer_service.go:121-134 | After a failed publish of a new reference, the cache is refunded. The store keeps the commit, with the account debited by the total, and the answer is internal error. |
| SagaProperties.AfterDebitSuccess | internal/service/transfer_service.go:107-138 | A commit and a publish leave the cache alone, commit the store and publish one message to the routed topic. The answer is pending. |
| SagaProperties.SuccessfulTransfer | internal/service/transfer_service.go:46-139 | A request that goes through answers pending with the generated reference and a balance-after that reads as the new cache balance. Cache and store drop by the same total, and one message goes to the destination bank's topic. |
| SagaProperties.StatusUpdateKeepsFirstWithRef | internal/repository/transfer_repository.go:47-53 | The status update keeps the first transfer with each reference first. |
| SagaProperties.CompensatingPendingIsIdempotent | internal/service/transfer_service.go:272-297 | Compensating a `PENDING` transfer credits the merchant once, and a second run is a no-op success. |
| SagaProperties.CompensatingSettledTransferCreditsTwice | internal/service/transfer_service.go:272-297 | Compensating a transfer in another status (e.g. `DONE`) twice succeeds twice, credits twice and writes two refund rows. |

## Left out

- **Floating point.** `float64`/`float32` amounts are integers in hundredths. Text is read by a decimal subset of `ParseFloat`: a sign, digits, and at most two fraction digits. Other forms (exponents, more decimals, "NaN") count as unparsable. The charges that are `float32` in the transfer row are not narrowed.
- **HINCRBYFLOAT text.** The cache's own text form of an incremented value is not modelled; the field is rewritten with two decimals.
- **Clock.** `time.Now`, the ISO-7 transaction date and the reference timestamp are parameters. Row creation times are not stored.
- **Logging.** Logging is left out.
- **The distributed lock.** The lease, expiry and retries of the distributed lock are left out; taking the lock is a boolean input. Concurrent requests for the same merchant are not modelled.
- **The fee write-back goroutine.** It is modelled as a sequential write whose error is ignored.
- **Publishing.** Protobuf marshalling and the Kafka producer are left out. A publish succeeds or fails by a boolean input, and its payload is kept as the request.
- BalanceRepo.BalanceRepository.Credit: its query at internal/repository/balance_repository.go:45 passes the amount as a second bind value to a condition with one placeholder. Its chained `Scan` is a second query of the same kind as `Debit`'s (below). gorm sends surplus values as extra bind arguments, and a driver that counts arguments may then reject every credit. The model treats the query as well formed, so a credit succeeds whenever the account exists. This was not executed. If every credit does fail, the compensation's success path, and with it `SagaProperties.CompensatingPendingIsIdempotent` and `SagaProperties.CompensatingSettledTransferCreditsTwice`, describes the evidently intended program rather than the one as written.
- BalanceRepo.BalanceRepository.Debit: at internal/repository/balance_repository.go:30-32 `Update` finishes the statement and the chained `Scan(&balance)` finishes it a second time. gorm keeps the `WHERE`, so a second query, a `SELECT` of the account row with the same merchant and `balance >= total` condition, runs after the UPDATE, and its error and row count decide lines 33-39. If the updated row still qualifies, several columns are scanned into one number and the call errs with 0; otherwise no row comes back and the call answers -1 with "insufficient balance". As written, then, a debit plausibly never succeeds, every store commit rolls back, and every request past the cache debit ends on the `SagaProperties.FailedCommitRefundsCache` path. This was not executed. The model keeps the UPDATE's success condition: a debit succeeds exactly when the account exists and its balance covers the total, and returns the updated balance. `PersistenceManager.TransferPersistenceManager.DebitMerchant`, `TransferSaga.TransferService.DebitAndRecord`, the commit case of `TransferSaga.PersistOutcomeSpec`, and `SagaProperties.SuccessfulDebitContinues`, `AfterDebitSuccess`, `SuccessfulTransfer` and `FailedPublishLeavesStoreDebited` therefore describe the evidently intended program.
- TransferRepo.TransferRepository.FindByRefNo: the query at internal/repository/transfer_repository.go:37 calls neither `Model` nor `Table`, so its SELECT names no table of its own; gorm can only derive one from the destination type `TransferTemp`, which is not the transaction table. As written, the find then plausibly fails on every call, so the compensation returns at internal/service/transfer_service.go:267-270 and changes nothing in the store. This was not executed. The model reads the transaction table. The cases of `TransferSaga.PublishFailureOutcomeSpec` after the find, `SagaProperties.CompensatingPendingIsIdempotent` and `SagaProperties.CompensatingSettledTransferCreditsTwice` therefore describe the evidently intended program. The conclusion of `SagaProperties.FailedPublishLeavesStoreDebited` (cache refunded, store still debited, internal error) holds either way.
- TransferSaga.ChannelPrefix: Go's `len` and slicing at internal/service/transfer_service.go:249-253 count UTF-8 bytes, while the model's strings are sequences of characters and count characters. The two agree on ASCII channel codes; for a channel with a multi-byte character ("é12") Go keeps fewer characters than the model. `TransferSaga.GeneratedReferenceNumber` inherits the difference.
- FeeSettingRepo.FindAll: the model sorts with a stable insertion sort, which fixes an order among rows with equal merchant codes. An `ORDER BY merchant_code` promises no such order. `LexLe` compares character codes, not the database's collation.
- **gorm.** Its internals are left out:
  - query building;
  - the table that `FindByRefNo`'s `Scan` reads (see its own line below).
  Row order is insertion order.
- **FindByRefNo.** gorm's not-found branch at internal/repository/transfer_repository.go:38-40 cannot fire for a `Scan`; a scan with no match gives the zero id and status.
- RedisService.TransferRedisService.DebitBalance: its second `newBalance < 0` check is modelled, but it can never be reached once the balance covers the amount.
- **The HTTP controller.** internal/controller/transfer_controller.go is not part of this model.
- **Bootstrap, configuration and client setup.** main.go, config/config.go and the helper packages are not part of this model.
- **Duplicates.** The unreferenced duplicate repositories (repository_redis/transfer_redis_repo.go, fee_settings.go) are not part of this model.
- **The unused ledger Delete.** Not part of this model.
- **Thin wrappers.** The ledger, recipient and sender repositories are folded into sequence appends in the persistence manager.

## Findings

| source | as written | input that shows it | evidently intended | confidence | as-written member | corrected member |
|---|---|---|---|---|---|---|
| internal/service/partner_service.go:60-62 | the read lock taken by `RLock` is released with the writer's `Unlock` | any routing lookup while no writer holds the mutex, which every request that reaches the publish step makes, if a store commit happens at all (see `BalanceRepo.BalanceRepository.Debit` under "## Left out"): `Unlock` of a mutex without a write lock aborts the process, after the cache debit and that commit and before any response | release with `RUnlock` | not executed | PartnerService.GetBankConfigAsWritten / PartnerService.GetBankConfigAsWrittenAborts | PartnerService.GetBankConfigLocked / PartnerService.BankPartner.GetBankConfig |

=== FILE: balance_repository.dfy ===
/** Conditional and unconditional updates of the merchant_accounts balance column. */
module BalanceRepo {
  import opened Common
  import opened Money
  import opened Entities
  import opened Store

  class BalanceRepository {
    const db: Database

    constructor (db: Database)
      ensures this.db == db
    {
      this.db := db;
    }

    /**
     * `UPDATE ... SET balance = balance - total WHERE merchant_code = m AND balance >= total`.
     * No matching row gives -1 and an insufficient-balance error. The result is the UPDATE's;
     * the second query that gorm runs for the chained `Scan` is not modelled.
     */
    method Debit(merchantCode: string, totalAmount: Money, storeError: bool) returns (balance: Money, err: Option<Error>)
      modifies db`accounts
      ensures storeError ==> balance == 0 && err == Some(ServerError) && db.accounts == old(db.accounts)
      ensures !storeError ==>
        (err.None? <==> merchantCode in old(db.accounts) && old(db.accounts)[merchantCode] >= totalAmount)
      ensures !storeError && err.None? ==>
        && balance == old(db.accounts)[merchantCode] - totalAmount
        && balance >= 0
        && db.accounts == old(db.accounts)[merchantCode := balance]
      ensures !storeError && err.Some? ==>
        balance == -1 && err == Some(InsufficientBalance) && db.accounts == old(db.accounts)
    {
      if storeError {
        return 0, Some(ServerError);
      }
      if merchantCode in db.accounts && db.accounts[merchantCode] >= totalAmount {
        balance := db.accounts[merchantCode] - totalAmount;
        db.accounts := db.accounts[merchantCode := balance];
        err := None;
      } else {
        balance, err := -1, Some(InsufficientBalance);
      }
    }

    /** `UPDATE ... SET balance = balance + amount WHERE merchant_code = m RETURNING balance`. */
    method Credit(merchantCode: string, amount: Money, storeError: bool) returns (balance: Money, err: Option<Error>)
      modifies db`accounts
      ensures storeError ==> balance == 0 && err == Some(ServerError) && db.accounts == old(db.accounts)
      ensures !storeError && merchantCode in old(db.accounts) ==>
        && err.None?
        && balance == old(db.accounts)[merchantCode] + amount
        && db.accounts == old(db.accounts)[merchantCode := balance]
      ensures !storeError && merchantCode !in old(db.accounts) ==>
        balance == -1 && err == Some(InsufficientBalance) && db.accounts == old(db.accounts)
    {
      if storeError {
        return 0, Some(ServerError);
      }
      if merchantCode in db.accounts {
        balance := db.accounts[merchantCode] + amount;
        db.accounts := db.accounts[merchantCode := balance];
        err := None;
      } else {
        balance, err := -1, Some(InsufficientBalance);
      }
    }

    /** The account of a merchant; a missing one is `(nil, nil)`, i.e. Ok(None). */
    function FindByCode(merchantCode: string, storeError: bool): (r: Result<Option<MerchantBalance>>)
      reads db
      ensures storeError <==> r.Err?
      ensures r.Ok? ==> (r.value.Some? <==> merchantCode in db.accounts)
      ensures r.Ok? && r.value.Some? ==> r.value.value == MerchantBalance(merchantCode, db.accounts[merchantCode])
    {
      if storeError then Err(ServerError)
      else if merchantCode in db.accounts then Ok(Some(MerchantBalance(merchantCode, db.accounts[merchantCode])))
      else Ok(None)
    }

    method WithTransaction(tx: Database) returns (r: BalanceRepository)
      ensures fresh(r) && r.db == tx
    {
      r := new BalanceRepository(tx);
    }
  }

  /** Every account appears in the listing with its balance, and nothing else does. */
  ghost predicate IsListing(rows: seq<MerchantBalance>, accounts: map<string, Money>)
  {
    && (forall i :: 0 <= i < |rows| ==> rows[i].merchantCode in accounts && rows[i].balance == accounts[rows[i].merchantCode])
    && (forall m :: m in accounts ==> exists i :: 0 <= i < |rows| && rows[i].merchantCode == m)
  }

  /** `SELECT merchant_code, balance FROM merchant_accounts`, in no particular order. */
  method FindAllBalances(db: Database, storeError: bool) returns (rows: Result<seq<MerchantBalance>>)
    ensures storeError <==> rows.Err?
    ensures rows.Ok? ==> IsListing(rows.value, db.accounts)
  {
    if storeError {
      return Err(ServerError);
    }
    var listed: seq<MerchantBalance> := [];
    var left := db.accounts.Keys;
    while left != {}
      invariant left <= db.accounts.Keys
      invariant forall i :: 0 <= i < |listed| ==>
        listed[i].merchantCode in db.accounts && listed[i].balance == db.accounts[listed[i].merchantCode]
      invariant forall m :: m in db.accounts && m !in left ==>
        exists i :: 0 <= i < |listed| && listed[i].merchantCode == m
      decreases left
    {
      var m :| m in left;
      var before := listed;
      listed := listed + [MerchantBalance(m, db.accounts[m])];
      forall k | k in db.accounts && k !in left - {m}
        ensures exists i :: 0 <= i < |listed| && listed[i].merchantCode == k
      {
        if k == m {
          assert listed[|before|].merchantCode == k;
        } else {
          var i :| 0 <= i < |before| && before[i].merchantCode == k;
          assert listed[i] == before[i];
        }
      }
      left := left - {m};
    }
    rows := Ok(listed);
  }
}

=== FILE: common.dfy ===
/** Failure-carrying wrappers shared by every layer of the transfer service. */
module Common {

  datatype Option<+T> = None | Some(value: T)

  /** The kinds of error the service's layers return (Go `error` values). */
  datatype Error =
    | LockNotAcquired                  // the per-merchant cache lock could not be taken
    | NotFound                         // cache key or hash field absent
    | ServerError                      // cache, store or bus infrastructure failure
    | InvalidNumber                    // a cached number did not parse
    | InsufficientBalance              // a conditional balance update matched no row, or the cache check failed
    | EmptyList                        // a bulk cache write was given nothing
    | InvalidAmount                    // the request amount did not parse
    | InvalidStateTransition(from: string)
    | PublishFailed

  datatype Result<+T> = Ok(value: T) | Err(error: Error)
}

=== FILE: constants.dfy ===
/** Response codes, their messages, ledger entry types and transfer statuses. */
module Constants {

  const TransferSuccess := "2004300"
  const PendingTransfer := "2024300"
  const ErrBadRequest := "4004300"
  const ErrInsufficientFunds := "4034314"
  const ErrDataNotFound := "4044301"
  const ErrBalanceNotAvailable := "4044316"
  const ErrInternalServerError := "5004301"
  const ErrExternalServerError := "5004302"
  const ErrTransferTimeout := "5044300"

  /** Every response code the service defines. */
  const ResponseCodes: seq<string> := [
    TransferSuccess, PendingTransfer, ErrBadRequest, ErrInsufficientFunds, ErrDataNotFound,
    ErrBalanceNotAvailable, ErrInternalServerError, ErrExternalServerError, ErrTransferTimeout
  ]

  const MsgSuccessful := "Successful"
  const MsgPendingTransfer := "Transaction is being processed"
  const MsgBadRequest := "Invalid request"
  const MsgInsufficientFunds := "Insufficient funds"
  const MsgDataNotFound := "Data not found"
  const MsgBalanceNotAvailable := "Merchant balance not found"
  const MsgInternalServerError := "Internal server error"
  const MsgExternalServerError := "External server error"
  const MsgTransferTimeout := "Timeout"

  /** The message each response code is answered with. */
  const ResponseMap: map<string, string> := map[
    TransferSuccess := MsgSuccessful,
    PendingTransfer := MsgPendingTransfer,
    ErrBadRequest := MsgBadRequest,
    ErrInsufficientFunds := MsgInsufficientFunds,
    ErrDataNotFound := MsgDataNotFound,
    ErrBalanceNotAvailable := MsgBalanceNotAvailable,
    ErrInternalServerError := MsgInternalServerError,
    ErrExternalServerError := MsgExternalServerError,
    ErrTransferTimeout := MsgTransferTimeout
  ]

  /** Ledger (account statement) entry types. */
  const StatusCredit := "CR"
  const StatusDebit := "DB"

  /** Transfer statuses. */
  const StatusFailedPublish := "FAILED_PUBLISH"
  const StatusDone := "DONE"
  const StatusPending := "PENDING"
  const StatusRejected := "REJECTED"
  const StatusInProgress := "PROGRESSING"

  const TransferStatuses: seq<string> := [
    StatusFailedPublish, StatusDone, StatusPending, StatusRejected, StatusInProgress
  ]

  /** A newly stored transfer is given the PENDING response message as its status, which is neither status below. */
  lemma PendingMessageIsNotAStatus()
    ensures MsgPendingTransfer != StatusPending && MsgPendingTransfer != StatusFailedPublish
  {
  }

  /**
   * The constant tables are well formed: the nine response codes and the five
   * transfer statuses are pairwise distinct, every code has a message, the
   * answers of the transfer flow use the table's messages, and the two ledger
   * entry types differ.
   */
  lemma ConstantTablesWellFormed()
    ensures |ResponseCodes| == 9
    ensures forall i, j :: 0 <= i < j < |ResponseCodes| ==> ResponseCodes[i] != ResponseCodes[j]
    ensures forall c :: c in ResponseCodes ==> c in ResponseMap
    ensures PendingTransfer in ResponseMap && ResponseMap[PendingTransfer] == MsgPendingTransfer
    ensures ErrInternalServerError in ResponseMap && ResponseMap[ErrInternalServerError] == MsgInternalServerError
    ensures ErrBalanceNotAvailable in ResponseMap && ResponseMap[ErrBalanceNotAvailable] == MsgBalanceNotAvailable
    ensures ErrInsufficientFunds in ResponseMap && ResponseMap[ErrInsufficientFunds] == MsgInsufficientFunds
    ensures StatusCredit != StatusDebit
    ensures |TransferStatuses| == 5
    ensures forall i, j :: 0 <= i < j < |TransferStatuses| ==> TransferStatuses[i] != TransferStatuses[j]
  {
  }
}

=== FILE: entities.dfy ===
/** The records the service reads, writes and returns. Times are left out. */
module Entities {
  import opened Common
  import opened Money

  datatype TransferAmount = TransferAmount(value: string, currency: string)

  datatype AdditionalInfo = AdditionalInfo(
    transactionDate: string,
    customerReference: string,
    channel: string,
    remarks: string,
    email: string,
    address: string,
    citizenship: string,
    transferPurpose: string,
    transferActivity: string,
    customerType: string)

  /** An inbound transfer request; the amount is still text. */
  datatype TransferRequest = TransferRequest(
    partnerReferenceNo: string,
    customerNumber: string,
    accountType: string,
    beneficiaryAccountNumber: string,
    beneficiaryBankCode: string,
    amount: TransferAmount,
    additionalInfo: AdditionalInfo)

  datatype TransferResponse = TransferResponse(
    responseCode: string,
    responseMessage: string,
    referenceNumber: string,
    partnerReferenceNo: string,
    transactionDate: string,
    additionalInfo: map<string, string>)

  /** Fee configuration of one (merchant, channel) pair. */
  datatype FeeSettings = FeeSettings(
    merchantCode: string,
    channel: string,
    feePartner: Money,
    feeService: Money,
    feeTax: Money,
    additionalFee: Money,
    totalCharge: Money)

  /** The zero value a Go `entity.FeeSettings{}` has. */
  const ZeroFee := FeeSettings("", "", 0, 0, 0, 0, 0)

  datatype MerchantBalance = MerchantBalance(merchantCode: string, balance: Money)

  datatype DataRecipient = DataRecipient(id: int, accountNumber: string, bankCode: string)

  /** A row of the transaction table. */
  datatype Transaction = Transaction(
    id: int,
    recipientId: int,
    merchantCode: string,
    partnerReferenceNo: string,
    bankReferenceNo: Option<string>,
    systemReferenceNo: Option<string>,
    amount: Money,
    currency: string,
    remark: string,
    transactionType: string,
    status: string,
    isReversal: bool,
    isReconcile: bool,
    companyCharge: Money,
    partnerCharge: Money,
    additionalPartnerCharge: Money,
    taxCharge: Money)

  /** The id and status columns of a transaction, as the compensation path reads them. */
  datatype TransferTemp = TransferTemp(id: int, status: string)

  /** A ledger row; `entryType` is the CR/DB marker. */
  datatype AccountStatement = AccountStatement(
    transactionId: int,
    transactionReference: string,
    merchantCode: string,
    entryType: string,
    channel: string,
    description: string,
    amount: Money,
    balanceAfter: Money)

  /** Routing of one destination bank to a message-bus topic. */
  datatype BankConfig = BankConfig(bankCode: string, bankName: string, kafkaTopic: string, kafkaTopicGroup: string)

  const ZeroBankConfig := BankConfig("", "", "", "")

  function BankCodeOf(b: BankConfig): string { b.bankCode }

  function MerchantCodeOf(b: MerchantBalance): string { b.merchantCode }

  function BalanceTextOf(b: MerchantBalance): string { FormatMoney(b.balance) }
}

=== FILE: fee_setting_repository.dfy ===
/** Read-only queries over the fee_settings table. */
module FeeSettingRepo {
  import opened Common
  import opened Entities

  /** Lexicographic order on codes, as an ascending ORDER BY on a text column compares them. */
  predicate LexLe(a: string, b: string)
    decreases |a|
  {
    a == [] || (b != [] && (a[0] < b[0] || (a[0] == b[0] && LexLe(a[1..], b[1..]))))
  }

  lemma {:induction false} LexLeTotal(a: string, b: string)
    ensures LexLe(a, b) || LexLe(b, a)
    decreases |a|
  {
    if a != [] && b != [] && a[0] == b[0] {
      LexLeTotal(a[1..], b[1..]);
    }
  }

  lemma {:induction false} LexLeTransitive(a: string, b: string, c: string)
    requires LexLe(a, b) && LexLe(b, c)
    ensures LexLe(a, c)
    decreases |a|
  {
    if a != [] && a[0] == b[0] && b[0] == c[0] {
      LexLeTransitive(a[1..], b[1..], c[1..]);
    }
  }

  predicate SortedByMerchant(rows: seq<FeeSettings>)
  {
    forall i, j :: 0 <= i < j < |rows| ==> LexLe(rows[i].merchantCode, rows[j].merchantCode)
  }

  /** Places x before the first row whose merchant code it does not exceed. */
  function Insert(x: FeeSettings, rows: seq<FeeSettings>): seq<FeeSettings>
  {
    if rows == [] then [x]
    else if LexLe(x.merchantCode, rows[0].merchantCode) then [x] + rows
    else [rows[0]] + Insert(x, rows[1..])
  }

  /** Every row's merchant code is at least `code`. */
  predicate AllAtLeast(code: string, rows: seq<FeeSettings>)
  {
    forall j :: 0 <= j < |rows| ==> LexLe(code, rows[j].merchantCode)
  }

  lemma SortedCons(a: FeeSettings, t: seq<FeeSettings>)
    requires AllAtLeast(a.merchantCode, t) && SortedByMerchant(t)
    ensures SortedByMerchant([a] + t)
  {
    var r := [a] + t;
    forall i, j | 0 <= i < j < |r| ensures LexLe(r[i].merchantCode, r[j].merchantCode) {
      if i > 0 { assert r[i] == t[i - 1] && r[j] == t[j - 1]; }
    }
  }

  lemma {:induction false} InsertMembers(x: FeeSettings, rows: seq<FeeSettings>)
    ensures forall y :: y in Insert(x, rows) <==> y == x || y in rows
  {
    if rows != [] && !LexLe(x.merchantCode, rows[0].merchantCode) {
      InsertMembers(x, rows[1..]);
      assert rows == [rows[0]] + rows[1..];
    }
  }

  lemma {:induction false} InsertPermutes(x: FeeSettings, rows: seq<FeeSettings>)
    ensures multiset(Insert(x, rows)) == multiset(rows) + multiset{x}
  {
    if rows != [] && !LexLe(x.merchantCode, rows[0].merchantCode) {
      InsertPermutes(x, rows[1..]);
      assert rows == [rows[0]] + rows[1..];
    }
  }

  lemma {:induction false} InsertSorted(x: FeeSettings, rows: seq<FeeSettings>)
    requires SortedByMerchant(rows)
    ensures SortedByMerchant(Insert(x, rows))
  {
    if rows == [] {
    } else if LexLe(x.merchantCode, rows[0].merchantCode) {
      forall j | 0 <= j < |rows| ensures LexLe(x.merchantCode, rows[j].merchantCode) {
        if j > 0 { LexLeTransitive(x.merchantCode, rows[0].merchantCode, rows[j].merchantCode); }
      }
      SortedCons(x, rows);
    } else {
      var tail := rows[1..];
      assert SortedByMerchant(tail) by {
        forall i, j | 0 <= i < j < |tail| ensures LexLe(tail[i].merchantCode, tail[j].merchantCode) {
          assert tail[i] == rows[i + 1] && tail[j] == rows[j + 1];
        }
      }
      InsertSorted(x, tail);
      InsertMembers(x, tail);
      LexLeTotal(x.merchantCode, rows[0].merchantCode);
      var t := Insert(x, tail);
      forall j | 0 <= j < |t| ensures LexLe(rows[0].merchantCode, t[j].merchantCode) {
        assert t[j] in t;
        if t[j] != x {
          var k :| 0 <= k < |tail| && tail[k] == t[j];
          assert rows[k + 1] == t[j];
        }
      }
      SortedCons(rows[0], t);
    }
  }

  /** Stable insertion sort of the rows by merchant code. */
  function SortByMerchant(rows: seq<FeeSettings>): seq<FeeSettings>
  {
    if rows == [] then [] else Insert(rows[|rows| - 1], SortByMerchant(rows[..|rows| - 1]))
  }

  lemma {:induction false} SortByMerchantCorrect(rows: seq<FeeSettings>)
    ensures SortedByMerchant(SortByMerchant(rows))
    ensures multiset(SortByMerchant(rows)) == multiset(rows)
  {
    if rows != [] {
      var n := |rows| - 1;
      SortByMerchantCorrect(rows[..n]);
      InsertSorted(rows[n], SortByMerchant(rows[..n]));
      InsertPermutes(rows[n], SortByMerchant(rows[..n]));
      assert rows == rows[..n] + [rows[n]];
    }
  }

  /** `SELECT * FROM fee_settings ORDER BY merchant_code ASC`. */
  function FindAll(rows: seq<FeeSettings>, storeError: bool): (r: Result<seq<FeeSettings>>)
    ensures storeError <==> r.Err?
    ensures r.Ok? ==> SortedByMerchant(r.value) && multiset(r.value) == multiset(rows)
  {
    if storeError then Err(ServerError)
    else
      SortByMerchantCorrect(rows);
      Ok(SortByMerchant(rows))
  }

  /** Row i is the first (lowest key) one for the merchant and channel. */
  predicate IsFirstFee(rows: seq<FeeSettings>, merchantCode: string, channel: string, i: int)
  {
    && 0 <= i < |rows|
    && rows[i].merchantCode == merchantCode && rows[i].channel == channel
    && forall j :: 0 <= j < i ==> !(rows[j].merchantCode == merchantCode && rows[j].channel == channel)
  }

  function FirstFee(rows: seq<FeeSettings>, merchantCode: string, channel: string): (r: Option<FeeSettings>)
    ensures (forall i :: 0 <= i < |rows| ==> !(rows[i].merchantCode == merchantCode && rows[i].channel == channel)) ==>
      r == None
    ensures forall i :: IsFirstFee(rows, merchantCode, channel, i) ==> r == Some(rows[i])
  {
    if rows == [] then None
    else if rows[0].merchantCode == merchantCode && rows[0].channel == channel then Some(rows[0])
    else
      var r := FirstFee(rows[1..], merchantCode, channel);
      assert forall i :: 1 <= i < |rows| ==> rows[i] == rows[1..][i - 1];
      r
  }

  /**
   * `... WHERE merchant_code = m AND channel = c` taking the first row. No row is
   * not an error: it yields the zero fee setting (total charge 0).
   */
  function FindByCodeAndChannel(rows: seq<FeeSettings>, merchantCode: string, channel: string, storeError: bool)
    : (r: Result<FeeSettings>)
    ensures storeError <==> r.Err?
    ensures r.Ok? && (forall i :: 0 <= i < |rows| ==> !(rows[i].merchantCode == merchantCode && rows[i].channel == channel)) ==>
      r.value == ZeroFee
    ensures r.Ok? ==> forall i :: IsFirstFee(rows, merchantCode, channel, i) ==> r.value == rows[i]
  {
    if storeError then Err(ServerError)
    else
      match FirstFee(rows, merchantCode, channel)
      case Some(fee) => Ok(fee)
      case None => Ok(ZeroFee)
  }
}

=== FILE: indexing.dfy ===
/**
 * Building a map from a list of rows, one entry per key, where a later row
 * overwrites an earlier one with the same key (a Go `m[key(row)] = val(row)` loop).
 */
module Indexing {

  function IndexBy<T, K, V>(rows: seq<T>, key: T -> K, val: T -> V): map<K, V>
  {
    if rows == [] then map[]
    else
      var n := |rows| - 1;
      IndexBy(rows[..n], key, val)[key(rows[n]) := val(rows[n])]
  }

  /** The keys of the index are exactly the keys of the rows. */
  lemma {:induction false} IndexByKeys<T, K, V>(rows: seq<T>, key: T -> K, val: T -> V, k: K)
    ensures k in IndexBy(rows, key, val) <==> exists i :: 0 <= i < |rows| && key(rows[i]) == k
  {
    if rows != [] {
      var n := |rows| - 1;
      IndexByKeys(rows[..n], key, val, k);
      if k in IndexBy(rows[..n], key, val) {
        var i :| 0 <= i < n && key(rows[..n][i]) == k;
        assert key(rows[i]) == k;
      }
      if exists i :: 0 <= i < |rows| && key(rows[i]) == k {
        var i :| 0 <= i < |rows| && key(rows[i]) == k;
        if i < n { assert key(rows[..n][i]) == k; }
      }
    }
  }

  /** The entry of a key is built from the last row with that key. */
  lemma {:induction false} IndexByLastWins<T, K, V>(rows: seq<T>, key: T -> K, val: T -> V, i: nat)
    requires i < |rows|
    requires forall j :: i < j < |rows| ==> key(rows[j]) != key(rows[i])
    ensures key(rows[i]) in IndexBy(rows, key, val)
    ensures IndexBy(rows, key, val)[key(rows[i])] == val(rows[i])
  {
    var n := |rows| - 1;
    if i < n {
      assert rows[..n][i] == rows[i];
      IndexByLastWins(rows[..n], key, val, i);
    }
  }

  /** Every entry of the index is built from some row carrying its key. */
  lemma {:induction false} IndexByEntryFromRow<T, K, V>(rows: seq<T>, key: T -> K, val: T -> V, k: K)
    requires k in IndexBy(rows, key, val)
    ensures exists i :: 0 <= i < |rows| && key(rows[i]) == k && IndexBy(rows, key, val)[k] == val(rows[i])
  {
    var n := |rows| - 1;
    if key(rows[n]) != k {
      IndexByEntryFromRow(rows[..n], key, val, k);
      var i :| 0 <= i < n && key(rows[..n][i]) == k && IndexBy(rows[..n], key, val)[k] == val(rows[..n][i]);
      assert rows[..n][i] == rows[i];
    }
  }
}

=== FILE: money.dfy ===
/**
 * Amounts in minor units (hundredths) and their decimal text form.
 *
 * The service keeps money in float64 and moves it through text: the cache
 * stores `FormatFloat(x, 'f', 2, 64)` and reads it back with `ParseFloat`.
 * Here an amount is an integer number of hundredths, FormatMoney writes it
 * with exactly two decimals, and ParseMoney reads an optional sign, digits,
 * and an optional point followed by at most two digits.
 */
module Money {
  import opened Common

  type Money = int

  predicate IsDigit(c: char) { '0' <= c <= '9' }

  predicate AllDigits(s: string) { forall i :: 0 <= i < |s| ==> IsDigit(s[i]) }

  function DigitChar(d: nat): (c: char)
    requires d < 10
    ensures IsDigit(c)
  {
    (('0' as int) + d) as char
  }

  function DigitValue(c: char): (d: nat)
    requires IsDigit(c)
    ensures d < 10 && DigitChar(d) == c
  {
    (c as int) - ('0' as int)
  }

  /** Decimal digits of n, most significant first, without leading zeros. */
  function NatToDigits(n: nat): (s: string)
    ensures 1 <= |s| && AllDigits(s)
    decreases n
  {
    if n < 10 then [DigitChar(n)] else NatToDigits(n / 10) + [DigitChar(n % 10)]
  }

  function DigitsToNat(s: string): nat
    requires AllDigits(s)
  {
    if s == [] then 0 else DigitsToNat(s[..|s| - 1]) * 10 + DigitValue(s[|s| - 1])
  }

  lemma {:induction false} DigitsRoundTrip(n: nat)
    ensures DigitsToNat(NatToDigits(n)) == n
    decreases n
  {
    if n >= 10 {
      var s := NatToDigits(n / 10);
      DigitsRoundTrip(n / 10);
      var t := s + [DigitChar(n % 10)];
      assert t[..|t| - 1] == s;
    }
  }

  function Pow10(k: nat): (p: nat)
    ensures p >= 1
  {
    if k == 0 then 1 else 10 * Pow10(k - 1)
  }

  /** A number below 10^k has at most k digits. */
  lemma {:induction false} DigitsLength(n: nat, k: nat)
    requires 1 <= k && n < Pow10(k)
    ensures |NatToDigits(n)| <= k
    decreases k
  {
    assert Pow10(1) == 10;
    if n >= 10 {
      assert k >= 2;
      assert n / 10 < Pow10(k - 1);
      DigitsLength(n / 10, k - 1);
    }
  }

  /** Position of the first `c` in s, or |s| when there is none. */
  function IndexOf(s: string, c: char): (r: nat)
    ensures r <= |s|
    ensures r < |s| ==> s[r] == c
  {
    if s == [] then 0 else if s[0] == c then 0 else 1 + IndexOf(s[1..], c)
  }

  /** No `c` comes before IndexOf(s, c). */
  lemma {:induction false} IndexOfIsFirst(s: string, c: char)
    ensures forall i :: 0 <= i < IndexOf(s, c) ==> s[i] != c
  {
    if s != [] && s[0] != c {
      IndexOfIsFirst(s[1..], c);
    }
  }

  /** Value in hundredths of at most two fraction digits. */
  function FractionCents(fp: string): (v: nat)
    requires AllDigits(fp) && |fp| <= 2
    ensures v < 100
  {
    if |fp| == 0 then 0
    else if |fp| == 1 then DigitValue(fp[0]) * 10
    else DigitValue(fp[0]) * 10 + DigitValue(fp[1])
  }

  function ParseUnsigned(s: string): (r: Option<nat>)
    ensures r.Some? ==> |s| > 0
  {
    var dot := IndexOf(s, '.');
    if dot == |s| then
      if |s| > 0 && AllDigits(s) then Some(DigitsToNat(s) * 100) else None
    else
      var ip, fp := s[..dot], s[dot + 1..];
      if AllDigits(ip) && AllDigits(fp) && |fp| <= 2 && |ip| + |fp| > 0
      then Some(DigitsToNat(ip) * 100 + FractionCents(fp))
      else None
  }

  /** Reads a decimal amount with an optional sign; None for text that is not one. */
  function ParseMoney(s: string): (r: Option<Money>)
    ensures r.Some? ==> |s| > 0
    ensures |s| > 0 && s[0] == '-' && r.Some? ==> r.value <= 0
    ensures |s| > 0 && IsDigit(s[0]) && r.Some? ==> r.value >= 0
  {
    var negative := |s| > 0 && s[0] == '-';
    var unsigned := if |s| > 0 && (s[0] == '-' || s[0] == '+') then s[1..] else s;
    match ParseUnsigned(unsigned)
    case Some(v) => Some(if negative then -(v as int) else v)
    case None => None
  }

  /** The unsigned text of a non-negative amount: whole part, point, two digits. */
  function UnsignedText(a: nat): (s: string)
    ensures 4 <= |s| && s[|s| - 3] == '.' && IsDigit(s[0])
  {
    NatToDigits(a / 100) + "." + [DigitChar(a % 100 / 10), DigitChar(a % 10)]
  }

  /** Writes an amount with exactly two decimals, as `FormatFloat(x, 'f', 2, 64)` does. */
  function FormatMoney(m: Money): (s: string)
    ensures 4 <= |s| && s[|s| - 3] == '.'
    ensures (s[0] == '-') == (m < 0)
  {
    if m < 0 then "-" + UnsignedText(-m) else UnsignedText(m)
  }

  lemma UnsignedRoundTrip(a: nat)
    ensures ParseUnsigned(UnsignedText(a)) == Some(a)
  {
    var ip := NatToDigits(a / 100);
    var fp := [DigitChar(a % 100 / 10), DigitChar(a % 10)];
    var u := ip + "." + fp;
    assert u == UnsignedText(a);
    assert IndexOf(u, '.') == |ip| by {
      assert u[|ip|] == '.';
      assert forall i :: 0 <= i < |ip| ==> u[i] == ip[i];
      IndexOfIsFirst(u, '.');
    }
    assert u[..|ip|] == ip && u[|ip| + 1..] == fp;
    assert DigitsToNat(ip) == a / 100 by {
      DigitsRoundTrip(a / 100);
    }
    assert FractionCents(fp) == a % 100;
  }

  /** Reading back what FormatMoney wrote gives the same amount. */
  lemma MoneyRoundTrip(m: Money)
    ensures ParseMoney(FormatMoney(m)) == Some(m)
  {
    if m < 0 {
      var u := UnsignedText(-m);
      assert ParseMoney("-" + u) == Some(m) by {
        UnsignedRoundTrip(-m);
        ParseNegative(u, -m);
      }
    } else {
      var u := UnsignedText(m);
      assert ParseMoney(u) == Some(m) by {
        UnsignedRoundTrip(m);
        ParseUnsignedText(u, m);
      }
    }
  }

  /** A leading minus sign negates what the rest of the text reads as. */
  lemma ParseNegative(u: string, a: nat)
    requires ParseUnsigned(u) == Some(a)
    ensures ParseMoney("-" + u) == Some(-(a as int))
  {
    assert ("-" + u)[1..] == u;
  }

  /** Text that starts with a digit reads as the unsigned amount it spells. */
  lemma ParseUnsignedText(u: string, a: nat)
    requires ParseUnsigned(u) == Some(a) && IsDigit(u[0])
    ensures ParseMoney(u) == Some(a)
  {
  }
}

=== FILE: partner_service.dfy ===
/**
 * The in-memory routing table from destination bank code to message-bus
 * topic, with a fallback to the default bank "14".
 */
module PartnerService {
  import opened Common
  import opened Entities
  import opened Indexing
  import opened Store

  const DefaultBankConfig := "14"

  /** The routing entry itself, as the value indexed under its bank code. */
  function SameConfig(b: BankConfig): BankConfig { b }

  /**
   * The entry of the bank code; else the entry of the default bank; else the
   * zero entry that a lookup of a missing key gives.
   */
  function Route(cache: map<string, BankConfig>, bankCode: string): (b: BankConfig)
  {
    if bankCode in cache then cache[bankCode]
    else if DefaultBankConfig in cache then cache[DefaultBankConfig]
    else ZeroBankConfig
  }

  /**
   * After the table is loaded from rows, a bank routes to the last row with
   * its code; a bank without rows routes to the last row of the default bank,
   * and to the zero entry (empty topic) when the default bank has none either.
   */
  lemma RouteAfterLoad(rows: seq<BankConfig>, bankCode: string)
    ensures (exists i :: 0 <= i < |rows| && rows[i].bankCode == bankCode) ==>
      exists i :: 0 <= i < |rows| && rows[i].bankCode == bankCode && Route(IndexBy(rows, BankCodeOf, SameConfig), bankCode) == rows[i]
    ensures (forall i :: 0 <= i < |rows| ==> rows[i].bankCode != bankCode) ==>
      (exists i :: 0 <= i < |rows| && rows[i].bankCode == DefaultBankConfig) ==>
      exists i :: 0 <= i < |rows| && rows[i].bankCode == DefaultBankConfig && Route(IndexBy(rows, BankCodeOf, SameConfig), bankCode) == rows[i]
    ensures (forall i :: 0 <= i < |rows| ==> rows[i].bankCode != bankCode && rows[i].bankCode != DefaultBankConfig) ==>
      Route(IndexBy(rows, BankCodeOf, SameConfig), bankCode) == ZeroBankConfig
  {
    var cache := IndexBy(rows, BankCodeOf, SameConfig);
    IndexByKeys(rows, BankCodeOf, SameConfig, bankCode);
    IndexByKeys(rows, BankCodeOf, SameConfig, DefaultBankConfig);
    if bankCode in cache {
      IndexByEntryFromRow(rows, BankCodeOf, SameConfig, bankCode);
    } else if DefaultBankConfig in cache {
      IndexByEntryFromRow(rows, BankCodeOf, SameConfig, DefaultBankConfig);
    }
  }

  /** A read-write mutex: the number of readers holding it and whether a writer does. */
  datatype RwMutex = RwMutex(readers: nat, writer: bool)

  const Unlocked := RwMutex(0, false)

  /** None: the caller blocks behind a writer. */
  function RLock(m: RwMutex): Option<RwMutex>
  {
    if m.writer then None else Some(m.(readers := m.readers + 1))
  }

  /** None: the runtime aborts, there being no read lock to release. */
  function RUnlock(m: RwMutex): Option<RwMutex>
  {
    if m.readers == 0 then None else Some(m.(readers := m.readers - 1))
  }

  /** None: the runtime aborts, there being no write lock to release. */
  function Unlock(m: RwMutex): Option<RwMutex>
  {
    if !m.writer then None else Some(m.(writer := false))
  }

  /**
   * The lookup as written: a read lock released with the writer's Unlock.
   * The result is the routing entry and the mutex afterwards, or None when
   * the process aborts.
   */
  function GetBankConfigAsWritten(cache: map<string, BankConfig>, bankCode: string, m: RwMutex): Option<(BankConfig, RwMutex)>
  {
    match RLock(m)
    case None => None
    case Some(m1) =>
      match Unlock(m1)
      case None => None
      case Some(m2) => Some((Route(cache, bankCode), m2))
  }

  /** Whenever the lookup can take its read lock at all, it aborts. */
  lemma GetBankConfigAsWrittenAborts(cache: map<string, BankConfig>, bankCode: string, m: RwMutex)
    ensures GetBankConfigAsWritten(cache, bankCode, m) == None
  {
  }

  /** The lookup with each read lock released by RUnlock. */
  function GetBankConfigLocked(cache: map<string, BankConfig>, bankCode: string, m: RwMutex): (r: Option<(BankConfig, RwMutex)>)
    ensures !m.writer ==> r == Some((Route(cache, bankCode), m))
    ensures m.writer ==> r == None
  {
    match RLock(m)
    case None => None
    case Some(m1) =>
      match RUnlock(m1)
      case None => None
      case Some(m2) => Some((Route(cache, bankCode), m2))
  }

  class BankPartner {
    /** Bank code -> routing entry. */
    var bankCache: map<string, BankConfig>
    const db: Database

    constructor (db: Database)
      ensures this.db == db && bankCache == map[]
    {
      this.db := db;
      bankCache := map[];
    }

    /** Rebuilds the table from the store's routing rows; a store error leaves it as it was. */
    method LoadAllBankPartner(storeError: bool) returns (err: Option<Error>)
      modifies this`bankCache
      ensures storeError ==> err == Some(ServerError) && bankCache == old(bankCache)
      ensures !storeError ==> err.None? && bankCache == IndexBy(db.partnerTable, BankCodeOf, SameConfig)
    {
      if storeError {
        return Some(ServerError);
      }
      var banks := db.partnerTable;
      var cache: map<string, BankConfig> := map[];
      var i := 0;
      while i < |banks|
        invariant 0 <= i <= |banks|
        invariant cache == IndexBy(banks[..i], BankCodeOf, SameConfig)
      {
        assert banks[..i + 1][..i] == banks[..i];
        cache := cache[banks[i].bankCode := banks[i]];
        i := i + 1;
      }
      assert banks[..i] == banks;
      bankCache := cache;
      err := None;
    }

    /** The routing entry of a bank code, with the default-bank fallback. */
    function GetBankConfig(bankCode: string): (b: BankConfig)
      reads this
      ensures GetBankConfigLocked(bankCache, bankCode, Unlocked) == Some((b, Unlocked))
    {
      Route(bankCache, bankCode)
    }
  }
}

=== FILE: persistence_manager.dfy ===
/**
 * The store-side steps of a transfer: recipient and transfer rows, the
 * conditional account debit and the credit, and the ledger rows with their
 * fixed signs and descriptions.
 */
module PersistenceManager {
  import opened Common
  import opened Money
  import opened Entities
  import opened Constants
  import opened Store
  import opened BalanceRepo
  import opened TransferRepo

  const ServiceFeeDescription := "Service Fee"
  const RefundDescriptionPrefix := "Refund fee: system error for ref: "
  const TransferCurrency := "IDR"

  /** A ledger row of a transfer: it carries the transfer id, the partner reference, the merchant and the channel. */
  function BuildStatement(
    transferId: int, request: TransferRequest, balance: Money, amount: Money,
    description: string, entryType: string, merchantCode: string): (st: AccountStatement)
    ensures st.transactionId == transferId && st.transactionReference == request.partnerReferenceNo
    ensures st.merchantCode == merchantCode && st.channel == request.additionalInfo.channel
    ensures st.balanceAfter == balance && st.amount == amount
    ensures st.entryType == entryType && st.description == description
  {
    AccountStatement(transferId, request.partnerReferenceNo, merchantCode, entryType,
      request.additionalInfo.channel, description, amount, balance)
  }

  /** The principal row: a debit of the transferred amount, described by the request's remarks. */
  function TransferLedgerRow(transferId: int, request: TransferRequest, balance: Money, merchantCode: string, amountTransfer: Money)
    : (st: AccountStatement)
    ensures st.entryType == StatusDebit && st.amount == -amountTransfer
    ensures st.description == request.additionalInfo.remarks
    ensures amountTransfer >= 0 ==> st.amount <= 0
  {
    BuildStatement(transferId, request, balance, -amountTransfer, request.additionalInfo.remarks, StatusDebit, merchantCode)
  }

  /** The fee row: a debit of the fee's total charge, described as the service fee. */
  function AdminFeeLedgerRow(transferId: int, request: TransferRequest, balance: Money, feeSetting: FeeSettings, merchantCode: string)
    : (st: AccountStatement)
    ensures st.entryType == StatusDebit && st.amount == -feeSetting.totalCharge
    ensures st.description == ServiceFeeDescription
  {
    BuildStatement(transferId, request, balance, -feeSetting.totalCharge, ServiceFeeDescription, StatusDebit, merchantCode)
  }

  /** The refund row: a credit of the refund's magnitude, never negative, naming the partner reference. */
  function RefundLedgerRow(transferId: int, request: TransferRequest, refundAmount: Money, balance: Money, merchantCode: string)
    : (st: AccountStatement)
    ensures st.entryType == StatusCredit
    ensures st.amount >= 0 && (st.amount == refundAmount || st.amount == -refundAmount)
    ensures st.description == RefundDescriptionPrefix + request.partnerReferenceNo
  {
    var amount := if refundAmount < 0 then -refundAmount else refundAmount;
    BuildStatement(transferId, request, balance, amount, RefundDescriptionPrefix + request.partnerReferenceNo, StatusCredit, merchantCode)
  }

  /**
   * The two debit rows of a transfer together record the whole amount
   * reserved, and a refund of that amount cancels them.
   */
  lemma LedgerRowsBalance(
    transferId: int, request: TransferRequest, balance: Money, refundBalance: Money, merchantCode: string,
    feeSetting: FeeSettings, amountTransfer: Money)
    requires amountTransfer + feeSetting.totalCharge >= 0
    ensures
      var principal := TransferLedgerRow(transferId, request, balance, merchantCode, amountTransfer);
      var fee := AdminFeeLedgerRow(transferId, request, balance, feeSetting, merchantCode);
      var refund := RefundLedgerRow(transferId, request, amountTransfer + feeSetting.totalCharge, refundBalance, merchantCode);
      && principal.amount + fee.amount == -(amountTransfer + feeSetting.totalCharge)
      && principal.amount + fee.amount + refund.amount == 0
      && principal.entryType == fee.entryType != refund.entryType
  {
  }

  /** The recipient row: exactly the beneficiary account and bank of the request. */
  function NewRecipient(id: int, request: TransferRequest): (r: DataRecipient)
    ensures r.accountNumber == request.beneficiaryAccountNumber && r.bankCode == request.beneficiaryBankCode
  {
    DataRecipient(id, request.beneficiaryAccountNumber, request.beneficiaryBankCode)
  }

  /** The transfer row before the store assigns its id. */
  function NewTransferRecord(
    recipient: DataRecipient, request: TransferRequest, adminFee: FeeSettings,
    partnerId: string, referenceNumber: string, amountTransfer: Money): (t: Transaction)
    ensures t.status == MsgPendingTransfer && t.status != StatusPending && t.status != StatusFailedPublish
    ensures t.currency == TransferCurrency && !t.isReversal && !t.isReconcile
    ensures t.bankReferenceNo == None && t.systemReferenceNo == Some(referenceNumber)
    ensures t.amount == amountTransfer && t.transactionType == request.additionalInfo.channel
    ensures t.merchantCode == partnerId && t.partnerReferenceNo == request.partnerReferenceNo
    ensures t.recipientId == recipient.id
  {
    Transaction(
      0, recipient.id, partnerId, request.partnerReferenceNo, None, Some(referenceNumber), amountTransfer,
      TransferCurrency, request.additionalInfo.remarks, request.additionalInfo.channel, MsgPendingTransfer,
      false, false, adminFee.feeService, adminFee.feePartner, adminFee.additionalFee, adminFee.feeTax)
  }

  class TransferPersistenceManager {
    /** The store the recipient and ledger rows are appended to. */
    const db: Database
    const transferRepo: TransferRepository
    const merchantRepo: BalanceRepository

    constructor (db: Database, transferRepo: TransferRepository, merchantRepo: BalanceRepository)
      ensures this.db == db && this.transferRepo == transferRepo && this.merchantRepo == merchantRepo
    {
      this.db, this.transferRepo, this.merchantRepo := db, transferRepo, merchantRepo;
    }

    method CreateRecipient(request: TransferRequest, storeError: bool) returns (r: Result<DataRecipient>)
      modifies db`recipients
      ensures storeError ==> r == Err(ServerError) && db.recipients == old(db.recipients)
      ensures !storeError ==>
        && r == Ok(NewRecipient(|old(db.recipients)| + 1, request))
        && db.recipients == old(db.recipients) + [r.value]
    {
      if storeError {
        return Err(ServerError);
      }
      var recipient := NewRecipient(|db.recipients| + 1, request);
      db.recipients := db.recipients + [recipient];
      r := Ok(recipient);
    }

    method CreateTransfer(
      recipient: DataRecipient, request: TransferRequest, adminFee: FeeSettings,
      partnerId: string, referenceNumber: string, amountTransfer: Money, storeError: bool)
      returns (r: Result<Transaction>)
      modifies transferRepo.db`transfers
      ensures storeError ==> r == Err(ServerError) && transferRepo.db.transfers == old(transferRepo.db.transfers)
      ensures !storeError ==>
        && r == Ok(NewTransferRecord(recipient, request, adminFee, partnerId, referenceNumber, amountTransfer)
                     .(id := |old(transferRepo.db.transfers)| + 1))
        && transferRepo.db.transfers == old(transferRepo.db.transfers) + [r.value]
    {
      var transfer := NewTransferRecord(recipient, request, adminFee, partnerId, referenceNumber, amountTransfer);
      var saved, err := transferRepo.Save(transfer, storeError);
      if err.Some? {
        return Err(err.value);
      }
      r := Ok(saved);
    }

    function FindTransferByPartnerReference(partnerReferenceNo: string, storeError: bool): (r: Result<TransferTemp>)
      reads transferRepo, transferRepo.db
      ensures storeError <==> r.Err?
      ensures r.Ok? ==> r.value == FirstByPartnerRef(transferRepo.db.transfers, partnerReferenceNo)
    {
      transferRepo.FindByRefNo(partnerReferenceNo, storeError)
    }

    method UpdateTransferStatus(id: int, status: string, storeError: bool) returns (err: Option<Error>)
      modifies transferRepo.db`transfers
      ensures storeError ==> err == Some(ServerError) && transferRepo.db.transfers == old(transferRepo.db.transfers)
      ensures !storeError ==> err.None? && transferRepo.db.transfers == SetStatusWherePending(old(transferRepo.db.transfers), id, status)
    {
      err := transferRepo.Update(id, status, storeError);
    }

    /** The conditional store debit; any error, including no matching row, gives 0. */
    method DebitMerchant(partnerId: string, totalAmount: Money, storeError: bool) returns (balance: Money, err: Option<Error>)
      modifies merchantRepo.db`accounts
      ensures err.Some? ==> balance == 0 && merchantRepo.db.accounts == old(merchantRepo.db.accounts)
      ensures storeError ==> err == Some(ServerError)
      ensures !storeError ==>
        (err.None? <==> partnerId in old(merchantRepo.db.accounts) && old(merchantRepo.db.accounts)[partnerId] >= totalAmount)
      ensures !storeError && err.Some? ==> err == Some(InsufficientBalance)
      ensures err.None? ==>
        && balance == old(merchantRepo.db.accounts)[partnerId] - totalAmount
        && balance >= 0
        && merchantRepo.db.accounts == old(merchantRepo.db.accounts)[partnerId := balance]
    {
      var newBalance, e := merchantRepo.Debit(partnerId, totalAmount, storeError);
      if e.Some? {
        return 0, e;
      }
      return newBalance, e;
    }

    /** The store credit; any error, including a missing merchant, gives 0. */
    method CreditMerchant(merchantCode: string, amount: Money, storeError: bool) returns (balance: Money, err: Option<Error>)
      modifies merchantRepo.db`accounts
      ensures err.Some? ==> balance == 0 && merchantRepo.db.accounts == old(merchantRepo.db.accounts)
      ensures storeError ==> err == Some(ServerError)
      ensures !storeError ==> (err.None? <==> merchantCode in old(merchantRepo.db.accounts))
      ensures !storeError && err.Some? ==> err == Some(InsufficientBalance)
      ensures err.None? ==>
        && balance == old(merchantRepo.db.accounts)[merchantCode] + amount
        && merchantRepo.db.accounts == old(merchantRepo.db.accounts)[merchantCode := balance]
    {
      var newBalance, e := merchantRepo.Credit(merchantCode, amount, storeError);
      if e.Some? {
        return 0, e;
      }
      return newBalance, None;
    }

    method CreateTransferLedger(
      transferId: int, request: TransferRequest, balance: Money, merchantCode: string, amountTransfer: Money, storeError: bool)
      returns (err: Option<Error>)
      modifies db`ledger
      ensures storeError ==> err == Some(ServerError) && db.ledger == old(db.ledger)
      ensures !storeError ==>
        err.None? && db.ledger == old(db.ledger) + [TransferLedgerRow(transferId, request, balance, merchantCode, amountTransfer)]
    {
      err := SaveStatement(TransferLedgerRow(transferId, request, balance, merchantCode, amountTransfer), storeError);
    }

    method CreateAdminFeeLedger(
      transferId: int, request: TransferRequest, balance: Money, feeSetting: FeeSettings, merchantCode: string, storeError: bool)
      returns (err: Option<Error>)
      modifies db`ledger
      ensures storeError ==> err == Some(ServerError) && db.ledger == old(db.ledger)
      ensures !storeError ==>
        err.None? && db.ledger == old(db.ledger) + [AdminFeeLedgerRow(transferId, request, balance, feeSetting, merchantCode)]
    {
      err := SaveStatement(AdminFeeLedgerRow(transferId, request, balance, feeSetting, merchantCode), storeError);
    }

    method CreateRefundLedger(
      transferId: int, request: TransferRequest, refundAmount: Money, balance: Money, merchantCode: string, storeError: bool)
      returns (err: Option<Error>)
      modifies db`ledger
      ensures storeError ==> err == Some(ServerError) && db.ledger == old(db.ledger)
      ensures !storeError ==>
        err.None? && db.ledger == old(db.ledger) + [RefundLedgerRow(transferId, request, refundAmount, balance, merchantCode)]
    {
      err := SaveStatement(RefundLedgerRow(transferId, request, refundAmount, balance, merchantCode), storeError);
    }

    /** Appends a row to the ledger. */
    method SaveStatement(statement: AccountStatement, storeError: bool) returns (err: Option<Error>)
      modifies db`ledger
      ensures storeError ==> err == Some(ServerError) && db.ledger == old(db.ledger)
      ensures !storeError ==> err.None? && db.ledger == old(db.ledger) + [statement]
    {
      if storeError {
        return Some(ServerError);
      }
      db.ledger := db.ledger + [statement];
      err := None;
    }
  }
}

=== FILE: redis_repository.dfy ===
/**
 * The cache tier: one hash per (merchant, channel) fee setting, one `balance`
 * hash with a field per merchant, and the `pending_transaction` set. Every
 * value is text; numbers are written with two decimals.
 */
module RedisRepo {
  import opened Common
  import opened Money
  import opened Entities
  import opened Indexing

  const KeyFeeSettings := "fee_settings"
  const KeyBalance := "balance"
  const KeyPendingTransaction := "pending_transaction"
  const FieldFeePartner := "fee_partner"
  const FieldFeeService := "fee_service"
  const FieldFeeTax := "fee_tax"
  const FieldAdditionalFee := "additional_fee"
  const FieldTotalCharge := "total_charge"

  /** The key of a fee hash; the same function builds it for writes and reads. */
  function FeeKey(merchantCode: string, channel: string): string
  {
    KeyFeeSettings + ":" + merchantCode + ":" + channel
  }

  /** The layout does not separate codes that contain ':' themselves. */
  lemma FeeKeyIsNotInjective()
    ensures FeeKey("m:1", "online") == FeeKey("m", "1:online")
  {
  }

  /** The five text fields a fee setting is cached as. */
  function EncodeFee(fee: FeeSettings): (data: map<string, string>)
  {
    map[
      FieldFeePartner := FormatMoney(fee.feePartner),
      FieldFeeService := FormatMoney(fee.feeService),
      FieldFeeTax := FormatMoney(fee.feeTax),
      FieldAdditionalFee := FormatMoney(fee.additionalFee),
      FieldTotalCharge := FormatMoney(fee.totalCharge)]
  }

  /** A missing field reads as "", and text that does not parse reads as 0. */
  function FieldAmount(data: map<string, string>, field: string): (v: Money)
    ensures field !in data ==> v == 0
    ensures field in data && ParseMoney(data[field]).Some? ==> v == ParseMoney(data[field]).value
    ensures field in data && ParseMoney(data[field]).None? ==> v == 0
  {
    var text := if field in data then data[field] else "";
    match ParseMoney(text)
    case Some(v) => v
    case None => 0
  }

  /** The fee setting read from a hash; merchant and channel are echoed from the arguments. */
  function DecodeFee(data: map<string, string>, merchantCode: string, channel: string): (fee: FeeSettings)
    ensures fee.merchantCode == merchantCode && fee.channel == channel
    ensures fee.feePartner == FieldAmount(data, FieldFeePartner)
    ensures fee.feeService == FieldAmount(data, FieldFeeService)
    ensures fee.feeTax == FieldAmount(data, FieldFeeTax)
    ensures fee.additionalFee == FieldAmount(data, FieldAdditionalFee)
    ensures fee.totalCharge == FieldAmount(data, FieldTotalCharge)
  {
    FeeSettings(merchantCode, channel,
      FieldAmount(data, FieldFeePartner), FieldAmount(data, FieldFeeService), FieldAmount(data, FieldFeeTax),
      FieldAmount(data, FieldAdditionalFee), FieldAmount(data, FieldTotalCharge))
  }

  /** A hash holding (at least) a fee's five fields reads back as that fee's amounts. */
  lemma DecodeEncodedFee(data: map<string, string>, fee: FeeSettings, merchantCode: string, channel: string)
    requires forall f :: f in EncodeFee(fee) ==> f in data && data[f] == EncodeFee(fee)[f]
    ensures DecodeFee(data, merchantCode, channel) == fee.(merchantCode := merchantCode, channel := channel)
  {
    var encoded := EncodeFee(fee);
    assert FieldFeePartner in encoded && FieldFeeService in encoded && FieldFeeTax in encoded;
    assert FieldAdditionalFee in encoded && FieldTotalCharge in encoded;
    FormattedFieldReads(data, FieldFeePartner, fee.feePartner);
    FormattedFieldReads(data, FieldFeeService, fee.feeService);
    FormattedFieldReads(data, FieldFeeTax, fee.feeTax);
    FormattedFieldReads(data, FieldAdditionalFee, fee.additionalFee);
    FormattedFieldReads(data, FieldTotalCharge, fee.totalCharge);
  }

  /** A field holding an amount written with two decimals reads back as that amount. */
  lemma FormattedFieldReads(data: map<string, string>, field: string, v: Money)
    requires field in data && data[field] == FormatMoney(v)
    ensures FieldAmount(data, field) == v
  {
    MoneyRoundTrip(v);
  }

  /** HSET merges the given fields into the hash at key, creating it if absent. */
  function HSet(hashes: map<string, map<string, string>>, key: string, data: map<string, string>): map<string, map<string, string>>
  {
    hashes[key := (if key in hashes then hashes[key] else map[]) + data]
  }

  datatype HSetCommand = HSetCommand(key: string, data: map<string, string>)

  /** Runs queued HSET commands in order, as an EXEC of a transaction pipeline does. */
  function ApplyAll(hashes: map<string, map<string, string>>, cmds: seq<HSetCommand>): map<string, map<string, string>>
  {
    if cmds == [] then hashes
    else
      var n := |cmds| - 1;
      HSet(ApplyAll(hashes, cmds[..n]), cmds[n].key, cmds[n].data)
  }

  /** The HSET that caches one fee setting under its key. */
  function FeeCommand(fee: FeeSettings): HSetCommand
  {
    HSetCommand(FeeKey(fee.merchantCode, fee.channel), EncodeFee(fee))
  }

  /** The commands SetListFee queues, one per listed fee setting, in list order. */
  function FeeCommands(list: seq<FeeSettings>): (cmds: seq<HSetCommand>)
    ensures |cmds| == |list|
  {
    if list == [] then [] else FeeCommands(list[..|list| - 1]) + [FeeCommand(list[|list| - 1])]
  }

  /** The i-th queued command caches the i-th setting. */
  lemma {:induction false} FeeCommandAt(list: seq<FeeSettings>, i: nat)
    requires i < |list|
    ensures FeeCommands(list)[i] == FeeCommand(list[i])
  {
    var n := |list| - 1;
    if i < n {
      FeeCommandAt(list[..n], i);
    }
  }

  /** Every queued command is keyed by its setting's merchant and channel. */
  lemma FeeCommandKeys(list: seq<FeeSettings>)
    ensures forall j :: 0 <= j < |list| ==> FeeCommands(list)[j].key == FeeKey(list[j].merchantCode, list[j].channel)
  {
    forall j | 0 <= j < |list|
      ensures FeeCommands(list)[j].key == FeeKey(list[j].merchantCode, list[j].channel)
    {
      FeeCommandAt(list, j);
    }
  }

  /** Each field of the last command on a key survives the rest of the batch. */
  lemma {:induction false} ApplyAllLastWins(hashes: map<string, map<string, string>>, cmds: seq<HSetCommand>, i: nat)
    requires i < |cmds|
    requires forall j :: i < j < |cmds| ==> cmds[j].key != cmds[i].key
    ensures cmds[i].key in ApplyAll(hashes, cmds)
    ensures forall f :: f in cmds[i].data ==>
      f in ApplyAll(hashes, cmds)[cmds[i].key] && ApplyAll(hashes, cmds)[cmds[i].key][f] == cmds[i].data[f]
  {
    var n := |cmds| - 1;
    if i < n {
      ApplyAllLastWins(hashes, cmds[..n], i);
    }
  }

  /**
   * After a bulk fee load, reading (m, c) gives the amounts of the last listed
   * setting whose key equals m and c's key.
   */
  lemma FeeListLastWins(
    hashes: map<string, map<string, string>>, list: seq<FeeSettings>, i: nat, merchantCode: string, channel: string)
    requires i < |list|
    requires FeeKey(list[i].merchantCode, list[i].channel) == FeeKey(merchantCode, channel)
    requires forall j :: i < j < |list| ==> FeeKey(list[j].merchantCode, list[j].channel) != FeeKey(merchantCode, channel)
    ensures FeeKey(merchantCode, channel) in ApplyAll(hashes, FeeCommands(list))
    ensures DecodeFee(ApplyAll(hashes, FeeCommands(list))[FeeKey(merchantCode, channel)], merchantCode, channel)
         == list[i].(merchantCode := merchantCode, channel := channel)
  {
    var cmds := FeeCommands(list);
    FeeCommandKeys(list);
    FeeCommandAt(list, i);
    ApplyAllLastWins(hashes, cmds, i);
    DecodeEncodedFee(ApplyAll(hashes, cmds)[cmds[i].key], list[i], merchantCode, channel);
  }

  /** The value of a balance field, when the field exists and parses. */
  function BalanceField(hash: map<string, string>, merchantCode: string): Option<Money>
  {
    if merchantCode in hash then ParseMoney(hash[merchantCode]) else None
  }

  /** HGET of a merchant's balance field, parsed: a missing field and unparsable text are errors. */
  function LookupBalance(hash: map<string, string>, merchantCode: string, serverError: bool): (r: Result<Money>)
    ensures r.Ok? <==> !serverError && BalanceField(hash, merchantCode).Some?
    ensures r.Ok? ==> r.value == BalanceField(hash, merchantCode).value
    ensures !serverError && merchantCode !in hash ==> r == Err(NotFound)
  {
    if serverError then Err(ServerError)
    else if merchantCode !in hash then Err(NotFound)
    else match ParseMoney(hash[merchantCode])
      case Some(v) => Ok(v)
      case None => Err(InvalidNumber)
  }

  /** A cache write: the hash afterwards and the error, if any. */
  datatype CacheWrite = CacheWrite(hash: map<string, string>, err: Option<Error>)

  /**
   * HINCRBYFLOAT of a field: a missing field counts as 0, text that is not a
   * number is an error; no other field changes.
   */
  function IncrementField(hash: map<string, string>, field: string, amount: Money, writeError: bool): (r: CacheWrite)
    ensures (writeError || (field in hash && BalanceField(hash, field).None?)) ==> r.err.Some? && r.hash == hash
    ensures r.err.None? <==> !writeError && (field !in hash || BalanceField(hash, field).Some?)
    ensures r.err.None? ==> r.hash.Keys == hash.Keys + {field}
    ensures forall m :: m != field && m in hash ==> m in r.hash && r.hash[m] == hash[m]
  {
    if writeError then CacheWrite(hash, Some(ServerError))
    else if field !in hash then CacheWrite(hash[field := FormatMoney(amount)], None)
    else match BalanceField(hash, field)
      case None => CacheWrite(hash, Some(InvalidNumber))
      case Some(current) => CacheWrite(hash[field := FormatMoney(current + amount)], None)
  }

  /** After a successful increment the field reads as its old value (0 when missing) plus the amount. */
  lemma IncrementFieldReadsBack(hash: map<string, string>, field: string, amount: Money)
    ensures var r := IncrementField(hash, field, amount, false);
      && (field !in hash ==> r.err.None? && BalanceField(r.hash, field) == Some(amount))
      && (BalanceField(hash, field).Some? ==>
            r.err.None? && BalanceField(r.hash, field) == Some(BalanceField(hash, field).value + amount))
  {
    if field !in hash {
      WrittenBalanceReads(hash, field, amount);
    } else if BalanceField(hash, field).Some? {
      WrittenBalanceReads(hash, field, BalanceField(hash, field).value + amount);
    }
  }

  /** A balance written as text reads back as the same amount. */
  lemma WrittenBalanceReads(hash: map<string, string>, field: string, v: Money)
    ensures BalanceField(hash[field := FormatMoney(v)], field) == Some(v)
  {
    MoneyRoundTrip(v);
  }

  /** HGETALL of the fee key; an empty or missing hash is an error, unparsable fields read as 0. */
  function ReadFee(hashes: map<string, map<string, string>>, merchantCode: string, channel: string, serverError: bool): (r: Result<FeeSettings>)
    ensures serverError ==> r == Err(ServerError)
    ensures !serverError ==>
      (r.Err? <==> FeeKey(merchantCode, channel) !in hashes || |hashes[FeeKey(merchantCode, channel)]| == 0)
    ensures !serverError && r.Err? ==> r == Err(NotFound)
    ensures r.Ok? ==> r.value == DecodeFee(hashes[FeeKey(merchantCode, channel)], merchantCode, channel)
  {
    var key := FeeKey(merchantCode, channel);
    if serverError then Err(ServerError)
    else if key !in hashes || |hashes[key]| == 0 then Err(NotFound)
    else Ok(DecodeFee(hashes[key], merchantCode, channel))
  }

  /** A fee written with HSET reads back with the same five amounts. */
  lemma SetFeeThenRead(hashes: map<string, map<string, string>>, fee: FeeSettings)
    ensures ReadFee(HSet(hashes, FeeKey(fee.merchantCode, fee.channel), EncodeFee(fee)), fee.merchantCode, fee.channel, false) == Ok(fee)
  {
    var key := FeeKey(fee.merchantCode, fee.channel);
    var data := HSet(hashes, key, EncodeFee(fee))[key];
    assert FieldTotalCharge in data;
    DecodeEncodedFee(data, fee, fee.merchantCode, fee.channel);
  }

  class RedisRepository {
    /** The `balance` hash: merchant code -> balance text. */
    var balanceHash: map<string, string>
    /** Fee hashes by key. */
    var feeHashes: map<string, map<string, string>>
    /** The `pending_transaction` set. */
    var pendingSet: set<string>

    constructor (balanceHash: map<string, string>, feeHashes: map<string, map<string, string>>, pendingSet: set<string>)
      ensures this.balanceHash == balanceHash && this.feeHashes == feeHashes && this.pendingSet == pendingSet
    {
      this.balanceHash, this.feeHashes, this.pendingSet := balanceHash, feeHashes, pendingSet;
    }

    /** The merchant's cached balance, when its field exists and parses. */
    function CachedBalance(merchantCode: string): Option<Money>
      reads this
    {
      BalanceField(balanceHash, merchantCode)
    }

    /** Queues one HSET per fee setting and executes them together. */
    method SetListFee(listFee: seq<FeeSettings>, execError: bool) returns (err: Option<Error>)
      modifies this`feeHashes
      ensures |listFee| == 0 ==> err == Some(EmptyList) && feeHashes == old(feeHashes)
      ensures |listFee| > 0 && execError ==> err == Some(ServerError) && feeHashes == old(feeHashes)
      ensures |listFee| > 0 && !execError ==> err.None? && feeHashes == ApplyAll(old(feeHashes), FeeCommands(listFee))
    {
      if |listFee| == 0 {
        return Some(EmptyList);
      }
      var pipeline: seq<HSetCommand> := [];
      var i := 0;
      while i < |listFee|
        invariant 0 <= i <= |listFee|
        invariant pipeline == FeeCommands(listFee[..i])
        invariant feeHashes == old(feeHashes)
      {
        assert listFee[..i + 1][..i] == listFee[..i];
        pipeline := pipeline + [FeeCommand(listFee[i])];
        i := i + 1;
      }
      assert listFee[..i] == listFee;
      if execError {
        return Some(ServerError);
      }
      feeHashes := ApplyAll(feeHashes, pipeline);
      err := None;
    }

    method SetFee(settings: FeeSettings, writeError: bool) returns (err: Option<Error>)
      modifies this`feeHashes
      ensures writeError ==> err == Some(ServerError) && feeHashes == old(feeHashes)
      ensures !writeError ==>
        err.None? && feeHashes == HSet(old(feeHashes), FeeKey(settings.merchantCode, settings.channel), EncodeFee(settings))
    {
      if writeError {
        return Some(ServerError);
      }
      feeHashes := HSet(feeHashes, FeeKey(settings.merchantCode, settings.channel), EncodeFee(settings));
      err := None;
    }

    /** Writes every listed balance as a field of the one `balance` hash; a later row wins. */
    method SetBalance(balances: seq<MerchantBalance>, execError: bool) returns (err: Option<Error>)
      modifies this`balanceHash
      ensures |balances| == 0 ==> err == Some(EmptyList) && balanceHash == old(balanceHash)
      ensures |balances| > 0 && execError ==> err == Some(ServerError) && balanceHash == old(balanceHash)
      ensures |balances| > 0 && !execError ==>
        err.None? && balanceHash == old(balanceHash) + IndexBy(balances, MerchantCodeOf, BalanceTextOf)
    {
      if |balances| == 0 {
        return Some(EmptyList);
      }
      var data: map<string, string> := map[];
      var i := 0;
      while i < |balances|
        invariant 0 <= i <= |balances|
        invariant data == IndexBy(balances[..i], MerchantCodeOf, BalanceTextOf)
      {
        var v := balances[i];
        assert balances[..i + 1][..i] == balances[..i];
        data := data[v.merchantCode := FormatMoney(v.balance)];
        i := i + 1;
      }
      assert balances[..i] == balances;
      if execError {
        return Some(ServerError);
      }
      balanceHash := balanceHash + data;
      err := None;
    }

    method SetPendingStatus(externalId: string, writeError: bool) returns (err: Option<Error>)
      modifies this`pendingSet
      ensures writeError ==> err == Some(ServerError) && pendingSet == old(pendingSet)
      ensures !writeError ==> err.None? && pendingSet == old(pendingSet) + {externalId}
    {
      if writeError {
        return Some(ServerError);
      }
      pendingSet := pendingSet + {externalId};
      err := None;
    }

    method DeletePendingStatus(externalId: string, writeError: bool) returns (err: Option<Error>)
      modifies this`pendingSet
      ensures writeError ==> err == Some(ServerError) && pendingSet == old(pendingSet)
      ensures !writeError ==> err.None? && pendingSet == old(pendingSet) - {externalId}
    {
      if writeError {
        return Some(ServerError);
      }
      pendingSet := pendingSet - {externalId};
      err := None;
    }

    /** HGETALL of the fee key; an empty or missing hash is an error, unparsable fields read as 0. */
    function FindByCodeAndChannel(merchantCode: string, channel: string, serverError: bool): (r: Result<FeeSettings>)
      reads this
      ensures serverError ==> r == Err(ServerError)
      ensures !serverError ==>
        (r.Err? <==> FeeKey(merchantCode, channel) !in feeHashes || |feeHashes[FeeKey(merchantCode, channel)]| == 0)
      ensures !serverError && r.Err? ==> r == Err(NotFound)
      ensures r.Ok? ==> r.value.merchantCode == merchantCode && r.value.channel == channel
      ensures r.Ok? ==> r.value == DecodeFee(feeHashes[FeeKey(merchantCode, channel)], merchantCode, channel)
    {
      ReadFee(feeHashes, merchantCode, channel, serverError)
    }

    /** HGET of the merchant's balance field, parsed. */
    function FindByMerchantCode(merchantCode: string, serverError: bool): (r: Result<Money>)
      reads this
      ensures r.Ok? <==> !serverError && CachedBalance(merchantCode).Some?
      ensures r.Ok? ==> r.value == CachedBalance(merchantCode).value
      ensures !serverError && merchantCode !in balanceHash ==> r == Err(NotFound)
    {
      LookupBalance(balanceHash, merchantCode, serverError)
    }

    /** HSET of one balance field: overwrites only that merchant's field. */
    method UpdateBalance(merchantCode: string, amount: string, writeError: bool) returns (err: Option<Error>)
      modifies this`balanceHash
      ensures writeError ==> err == Some(ServerError) && balanceHash == old(balanceHash)
      ensures !writeError ==> err.None? && balanceHash == old(balanceHash)[merchantCode := amount]
    {
      if writeError {
        return Some(ServerError);
      }
      balanceHash := balanceHash[merchantCode := amount];
      err := None;
    }

    /**
     * HINCRBYFLOAT of the merchant's field: a missing field counts as 0, a
     * field that is not a number is an error.
     */
    method RefundBalance(merchantCode: string, amount: Money, writeError: bool) returns (err: Option<Error>)
      modifies this`balanceHash
      ensures CacheWrite(balanceHash, err) == IncrementField(old(balanceHash), merchantCode, amount, writeError)
    {
      var w := IncrementField(balanceHash, merchantCode, amount, writeError);
      balanceHash, err := w.hash, w.err;
    }
  }
}

=== FILE: saga_properties.dfy ===
/** What one transfer request does to the cache, the store and the bus, path by path. */
module SagaProperties {
  import opened Common
  import opened Money
  import opened Entities
  import opened Constants
  import opened Store
  import opened TransferRepo
  import opened RedisRepo
  import opened RedisService
  import opened PartnerService
  import opened PersistenceManager
  import opened TransferSaga

  /** When neither the cache nor the store yields a fee, nothing changes and the answer is data-not-found. */
  lemma FeeMissAnswersDataNotFound(
    w: World, request: TransferRequest, merchantCode: string, externalId: string,
    timestamp: string, transactionDate: string, routing: map<string, BankConfig>, f: Faults)
    requires FeeLookup(w, merchantCode, request.additionalInfo.channel, f).None?
    ensures
      var r := Saga(w, request, merchantCode, externalId, timestamp, transactionDate, routing, f);
      && r.world == w
      && r.response.responseCode == ErrDataNotFound
      && r.response.responseMessage == MsgInternalServerError
      && r.response.referenceNumber == ""
  {
  }

  /** AfterDebit neither reads the fee hashes nor the write-back outcome. */
  lemma AfterDebitIgnoresFees(
    wa: World, wb: World, request: TransferRequest, fee: FeeSettings, merchantCode: string, externalId: string,
    total: Money, balance: Money, timestamp: string, transactionDate: string, routing: map<string, BankConfig>,
    fa: Faults, fb: Faults)
    requires wa.(fees := wb.fees) == wb
    requires fa.(writeBackError := fb.writeBackError) == fb
    ensures
      var a := AfterDebit(wa, request, fee, merchantCode, externalId, total, balance, timestamp, transactionDate, routing, fa);
      var b := AfterDebit(wb, request, fee, merchantCode, externalId, total, balance, timestamp, transactionDate, routing, fb);
      a.response == b.response && a.world.(fees := wb.fees) == b.world
  {
  }

  lemma WriteBackErrorIsIgnoredOnceFeeKnown(
    w: World, request: TransferRequest, merchantCode: string, externalId: string,
    timestamp: string, transactionDate: string, routing: map<string, BankConfig>, fa: Faults, fb: Faults, fee: FeeSettings)
    requires fa.(writeBackError := fb.writeBackError) == fb
    requires FeeLookup(w, merchantCode, request.additionalInfo.channel, fa) == Some(fee)
    requires FeeLookup(w, merchantCode, request.additionalInfo.channel, fb) == Some(fee)
    ensures
      var a := Saga(w, request, merchantCode, externalId, timestamp, transactionDate, routing, fa);
      var b := Saga(w, request, merchantCode, externalId, timestamp, transactionDate, routing, fb);
      a.response == b.response && a.world.(fees := b.world.fees) == b.world
  {
    var channel := request.additionalInfo.channel;
    var total := SumAmount(fee, request.amount.value);
    var debit := CacheDebit(w.balances, merchantCode, total, fa.debitLockFails, fa.debitReadError, fa.debitWriteError);
    var wa := w.(fees := FeesAfterLookup(w, merchantCode, channel, fa), balances := debit.hash);
    var wb := w.(fees := FeesAfterLookup(w, merchantCode, channel, fb), balances := debit.hash);
    if debit.balance != 0 && debit.balance != -1 && debit.err.None? {
      AfterDebitIgnoresFees(wa, wb, request, fee, merchantCode, externalId, total, debit.balance,
        timestamp, transactionDate, routing, fa, fb);
    }
  }

  /** Whether the write-back of a store fee to the cache fails changes nothing but the fee hashes. */
  lemma WriteBackErrorIsIgnored(
    w: World, request: TransferRequest, merchantCode: string, externalId: string,
    timestamp: string, transactionDate: string, routing: map<string, BankConfig>, f: Faults)
    ensures
      var a := Saga(w, request, merchantCode, externalId, timestamp, transactionDate, routing, f.(writeBackError := false));
      var b := Saga(w, request, merchantCode, externalId, timestamp, transactionDate, routing, f.(writeBackError := true));
      && a.response == b.response
      && a.world.balances == b.world.balances
      && a.world.store == b.world.store
      && a.world.published == b.world.published
  {
    var channel := request.additionalInfo.channel;
    var fa := f.(writeBackError := false);
    var fb := f.(writeBackError := true);
    var lookup := FeeLookup(w, merchantCode, channel, fa);
    assert lookup == FeeLookup(w, merchantCode, channel, fb) by {
      assert ReadFee(w.fees, merchantCode, channel, fa.feeCacheError) == ReadFee(w.fees, merchantCode, channel, fb.feeCacheError);
    }
    if lookup.Some? {
      WriteBackErrorIsIgnoredOnceFeeKnown(w, request, merchantCode, externalId, timestamp, transactionDate, routing, fa, fb, lookup.value);
    } else {
      var a := Saga(w, request, merchantCode, externalId, timestamp, transactionDate, routing, fa);
      var b := Saga(w, request, merchantCode, externalId, timestamp, transactionDate, routing, fb);
      assert a == b;
    }
  }

  /**
   * A cache debit that uses up the whole balance is answered as
   * balance-not-available, and the debit stays: the cache balance is 0, the
   * store is untouched and nothing is published.
   */
  lemma ExactDebitIsReportedNotAvailable(
    w: World, request: TransferRequest, merchantCode: string, externalId: string,
    timestamp: string, transactionDate: string, routing: map<string, BankConfig>, f: Faults, fee: FeeSettings)
    requires FeeLookup(w, merchantCode, request.additionalInfo.channel, f) == Some(fee)
    requires !f.debitLockFails && !f.debitReadError && !f.debitWriteError
    requires BalanceField(w.balances, merchantCode) == Some(SumAmount(fee, request.amount.value))
    ensures
      var r := Saga(w, request, merchantCode, externalId, timestamp, transactionDate, routing, f);
      && r.response.responseCode == ErrBalanceNotAvailable
      && r.response.referenceNumber == ""
      && BalanceField(r.world.balances, merchantCode) == Some(0)
      && r.world.store == w.store
      && r.world.published == w.published
  {
    CacheDebitOutcome(w.balances, merchantCode, SumAmount(fee, request.amount.value), false, false, false);
  }

  /**
   * A failed cache debit never reaches the store or the bus and leaves the
   * cache balance alone; it is answered as balance-not-available or
   * insufficient-funds, never as an internal error.
   */
  lemma FailedDebitChangesNoBalance(
    w: World, request: TransferRequest, merchantCode: string, externalId: string,
    timestamp: string, transactionDate: string, routing: map<string, BankConfig>, f: Faults, fee: FeeSettings)
    requires FeeLookup(w, merchantCode, request.additionalInfo.channel, f) == Some(fee)
    requires CacheDebit(w.balances, merchantCode, SumAmount(fee, request.amount.value),
      f.debitLockFails, f.debitReadError, f.debitWriteError).err.Some?
    ensures
      var r := Saga(w, request, merchantCode, externalId, timestamp, transactionDate, routing, f);
      && (r.response.responseCode == ErrBalanceNotAvailable || r.response.responseCode == ErrInsufficientFunds)
      && r.world.balances == w.balances
      && r.world.store == w.store
      && r.world.published == w.published
  {
  }

  /** Past a successful cache debit that leaves a positive balance, the saga continues with AfterDebit. */
  lemma SuccessfulDebitContinues(
    w: World, request: TransferRequest, merchantCode: string, externalId: string,
    timestamp: string, transactionDate: string, routing: map<string, BankConfig>, f: Faults, fee: FeeSettings)
    requires FeeLookup(w, merchantCode, request.additionalInfo.channel, f) == Some(fee)
    requires !f.debitLockFails && !f.debitReadError && !f.debitWriteError
    requires BalanceField(w.balances, merchantCode).Some?
    requires BalanceField(w.balances, merchantCode).value > SumAmount(fee, request.amount.value)
    ensures
      var total := SumAmount(fee, request.amount.value);
      var debit := CacheDebit(w.balances, merchantCode, total, false, false, false);
      && debit.err.None?
      && debit.balance == BalanceField(w.balances, merchantCode).value - total
      && BalanceField(debit.hash, merchantCode) == Some(debit.balance)
      && Saga(w, request, merchantCode, externalId, timestamp, transactionDate, routing, f)
         == AfterDebit(w.(fees := FeesAfterLookup(w, merchantCode, request.additionalInfo.channel, f), balances := debit.hash),
              request, fee, merchantCode, externalId, total, debit.balance, timestamp, transactionDate, routing, f)
  {
    CacheDebitOutcome(w.balances, merchantCode, SumAmount(fee, request.amount.value), false, false, false);
  }

  /**
   * When the store commit fails, the cache is credited back with the total
   * (so the merchant's cached balance is what it was), the store is
   * untouched, nothing is published, and the answer is an internal error
   * without a reference number.
   */
  lemma FailedCommitRefundsCache(
    w: World, request: TransferRequest, merchantCode: string, externalId: string,
    timestamp: string, transactionDate: string, routing: map<string, BankConfig>, f: Faults, fee: FeeSettings)
    requires FeeLookup(w, merchantCode, request.additionalInfo.channel, f) == Some(fee)
    requires !f.debitLockFails && !f.debitReadError && !f.debitWriteError
    requires BalanceField(w.balances, merchantCode).Some?
    requires BalanceField(w.balances, merchantCode).value > SumAmount(fee, request.amount.value)
    requires PersistOutcome(w.store, request, fee, merchantCode, GeneratedReferenceNumber(request, timestamp),
      SumAmount(fee, request.amount.value), f.persist).err.Some?
    requires !f.refundLockFails && !f.refundWriteError
    ensures
      var r := Saga(w, request, merchantCode, externalId, timestamp, transactionDate, routing, f);
      && r.response == InternalError(request, fee, transactionDate)
      && r.response.referenceNumber == ""
      && BalanceField(r.world.balances, merchantCode) == BalanceField(w.balances, merchantCode)
      && r.world.store == w.store
      && r.world.published == w.published
  {
    var total := SumAmount(fee, request.amount.value);
    SuccessfulDebitContinues(w, request, merchantCode, externalId, timestamp, transactionDate, routing, f, fee);
    DebitThenRefundRestores(w.balances, merchantCode, total, false, false, false);
  }

  /** The first row with a reference stays first when one more row is appended. */
  lemma AppendedRowIsFirstWithRef(rows: seq<Transaction>, extra: Transaction)
    requires forall i :: 0 <= i < |rows| ==> rows[i].partnerReferenceNo != extra.partnerReferenceNo
    ensures IsFirstWithRef(rows + [extra], extra.partnerReferenceNo, |rows|)
  {
  }

  /**
   * When the publish fails after a commit of a new partner reference, the
   * cache is refunded but the store compensation refuses the new transfer's
   * status: the store keeps the committed debit, transfer row and ledger
   * rows, and the answer is an internal error.
   */
  lemma FailedPublishLeavesStoreDebited(
    w: World, request: TransferRequest, merchantCode: string, externalId: string,
    timestamp: string, transactionDate: string, routing: map<string, BankConfig>, f: Faults, fee: FeeSettings)
    requires FeeLookup(w, merchantCode, request.additionalInfo.channel, f) == Some(fee)
    requires !f.debitLockFails && !f.debitReadError && !f.debitWriteError
    requires BalanceField(w.balances, merchantCode).Some?
    requires BalanceField(w.balances, merchantCode).value > SumAmount(fee, request.amount.value)
    requires PersistOutcome(w.store, request, fee, merchantCode, GeneratedReferenceNumber(request, timestamp),
      SumAmount(fee, request.amount.value), f.persist).err.None?
    requires f.publishFails && !f.refundLockFails && !f.refundWriteError && !f.compensation.findFails
    requires forall i :: 0 <= i < |w.store.transfers| ==> w.store.transfers[i].partnerReferenceNo != request.partnerReferenceNo
    ensures
      var total := SumAmount(fee, request.amount.value);
      var r := Saga(w, request, merchantCode, externalId, timestamp, transactionDate, routing, f);
      && r.response == InternalError(request, fee, transactionDate)
      && BalanceField(r.world.balances, merchantCode) == BalanceField(w.balances, merchantCode)
      && r.world.store == PersistOutcome(w.store, request, fee, merchantCode, GeneratedReferenceNumber(request, timestamp),
           total, f.persist).state
      && r.world.store.accounts[merchantCode] == w.store.accounts[merchantCode] - total
      && r.world.published == w.published
  {
    var total := SumAmount(fee, request.amount.value);
    var reference := GeneratedReferenceNumber(request, timestamp);
    var s := w.store;
    var persisted := PersistOutcome(s, request, fee, merchantCode, reference, total, f.persist);
    SuccessfulDebitContinues(w, request, merchantCode, externalId, timestamp, transactionDate, routing, f, fee);
    PersistOutcomeSpec(s, request, fee, merchantCode, reference, total, f.persist);
    var t := |s.transfers|;
    assert persisted.state.transfers == s.transfers + [persisted.state.transfers[t]];
    AppendedRowIsFirstWithRef(s.transfers, persisted.state.transfers[t]);
    var compensated := PublishFailureOutcome(persisted.state, merchantCode, request, total, f.compensation);
    assert compensated.state == persisted.state;
    DebitThenRefundRestores(w.balances, merchantCode, total, false, false, false);
  }

  /** After the debit, a committed transfer whose message is published answers pending and changes only the store and the bus. */
  lemma AfterDebitSuccess(
    w: World, request: TransferRequest, fee: FeeSettings, merchantCode: string, externalId: string,
    total: Money, balance: Money, timestamp: string, transactionDate: string, routing: map<string, BankConfig>, f: Faults)
    requires PersistOutcome(w.store, request, fee, merchantCode, GeneratedReferenceNumber(request, timestamp), total, f.persist).err.None?
    requires !f.publishFails
    ensures
      var reference := GeneratedReferenceNumber(request, timestamp);
      var r := AfterDebit(w, request, fee, merchantCode, externalId, total, balance, timestamp, transactionDate, routing, f);
      && r.world.balances == w.balances
      && r.world.store == PersistOutcome(w.store, request, fee, merchantCode, reference, total, f.persist).state
      && r.world.published == w.published + [Message(Route(routing, request.beneficiaryBankCode).kafkaTopic,
           request.partnerReferenceNo, externalId, request)]
      && r.response == HandleTransferResponse(PendingTransfer, MsgPendingTransfer, reference,
           request.partnerReferenceNo, FormatMoney(balance), Some(fee), transactionDate)
  {
  }

  /**
   * A request that goes through answers "pending" with the generated
   * reference and the new cache balance, debits the cache and the store by
   * the same total, and publishes one message to the destination bank's
   * topic, keyed by the partner reference.
   */
  lemma SuccessfulTransfer(
    w: World, request: TransferRequest, merchantCode: string, externalId: string,
    timestamp: string, transactionDate: string, routing: map<string, BankConfig>, f: Faults, fee: FeeSettings)
    requires FeeLookup(w, merchantCode, request.additionalInfo.channel, f) == Some(fee)
    requires !f.debitLockFails && !f.debitReadError && !f.debitWriteError
    requires BalanceField(w.balances, merchantCode).Some?
    requires BalanceField(w.balances, merchantCode).value > SumAmount(fee, request.amount.value)
    requires PersistOutcome(w.store, request, fee, merchantCode, GeneratedReferenceNumber(request, timestamp),
      SumAmount(fee, request.amount.value), f.persist).err.None?
    requires !f.publishFails
    ensures
      var total := SumAmount(fee, request.amount.value);
      var newBalance := BalanceField(w.balances, merchantCode).value - total;
      var r := Saga(w, request, merchantCode, externalId, timestamp, transactionDate, routing, f);
      && r.response.responseCode == PendingTransfer
      && r.response.responseMessage == MsgPendingTransfer
      && r.response.referenceNumber == GeneratedReferenceNumber(request, timestamp)
      && FieldBalanceAfter in r.response.additionalInfo
      && ParseMoney(r.response.additionalInfo[FieldBalanceAfter]) == Some(newBalance)
      && BalanceField(r.world.balances, merchantCode) == Some(newBalance)
      && merchantCode in w.store.accounts && merchantCode in r.world.store.accounts
      && r.world.store.accounts[merchantCode] == w.store.accounts[merchantCode] - total
      && r.world.published == w.published + [Message(Route(routing, request.beneficiaryBankCode).kafkaTopic,
           request.partnerReferenceNo, externalId, request)]
  {
    var total := SumAmount(fee, request.amount.value);
    var newBalance := BalanceField(w.balances, merchantCode).value - total;
    var reference := GeneratedReferenceNumber(request, timestamp);
    var debit := CacheDebit(w.balances, merchantCode, total, false, false, false);
    var w1 := w.(fees := FeesAfterLookup(w, merchantCode, request.additionalInfo.channel, f), balances := debit.hash);
    var r := Saga(w, request, merchantCode, externalId, timestamp, transactionDate, routing, f);
    assert debit.balance == newBalance && BalanceField(debit.hash, merchantCode) == Some(newBalance)
      && r == AfterDebit(w1, request, fee, merchantCode, externalId, total, newBalance, timestamp, transactionDate, routing, f) by {
      SuccessfulDebitContinues(w, request, merchantCode, externalId, timestamp, transactionDate, routing, f, fee);
    }
    assert r.world.balances == debit.hash
      && r.world.store == PersistOutcome(w.store, request, fee, merchantCode, reference, total, f.persist).state
      && r.world.published == w.published + [Message(Route(routing, request.beneficiaryBankCode).kafkaTopic,
           request.partnerReferenceNo, externalId, request)]
      && r.response == HandleTransferResponse(PendingTransfer, MsgPendingTransfer, reference,
           request.partnerReferenceNo, FormatMoney(newBalance), Some(fee), transactionDate) by {
      AfterDebitSuccess(w1, request, fee, merchantCode, externalId, total, newBalance, timestamp, transactionDate, routing, f);
    }
    assert FieldBalanceAfter in r.response.additionalInfo
      && ParseMoney(r.response.additionalInfo[FieldBalanceAfter]) == Some(newBalance) by {
      MoneyRoundTrip(newBalance);
    }
    assert merchantCode in w.store.accounts && merchantCode in r.world.store.accounts
      && r.world.store.accounts[merchantCode] == w.store.accounts[merchantCode] - total by {
      PersistOutcomeSpec(w.store, request, fee, merchantCode, reference, total, f.persist);
    }
  }

  /** The status update of the compensation leaves every partner reference where it was. */
  lemma StatusUpdateKeepsFirstWithRef(rows: seq<Transaction>, id: int, status: string, ref: string, i: int)
    requires IsFirstWithRef(rows, ref, i)
    ensures IsFirstWithRef(SetStatusWherePending(rows, id, status), ref, i)
  {
    var updated := SetStatusWherePending(rows, id, status);
    forall j | 0 <= j < i ensures updated[j].partnerReferenceNo != ref {
      assert updated[j].partnerReferenceNo == rows[j].partnerReferenceNo;
    }
  }

  /**
   * Compensating a PENDING transfer twice: the first run marks it
   * FAILED_PUBLISH and credits the merchant, the second is a no-op success.
   */
  lemma CompensatingPendingIsIdempotent(
    s: DbState, merchantCode: string, request: TransferRequest, amount: Money, i: int)
    requires IsFirstWithRef(s.transfers, request.partnerReferenceNo, i)
    requires s.transfers[i].status == StatusPending
    requires merchantCode in s.accounts
    ensures
      var noFaults := CompensationFaults(false, false, false, false);
      var first := PublishFailureOutcome(s, merchantCode, request, amount, noFaults);
      && first.err.None?
      && first.state.accounts[merchantCode] == s.accounts[merchantCode] + amount
      && PublishFailureOutcome(first.state, merchantCode, request, amount, noFaults) == StoreResult(first.state, None)
  {
    var noFaults := CompensationFaults(false, false, false, false);
    var first := PublishFailureOutcome(s, merchantCode, request, amount, noFaults);
    var id := s.transfers[i].id;
    StatusUpdateKeepsFirstWithRef(s.transfers, id, StatusFailedPublish, request.partnerReferenceNo, i);
    assert first.state.transfers == SetStatusWherePending(s.transfers, id, StatusFailedPublish);
    assert first.state.transfers[i].status == StatusFailedPublish;
  }

  /**
   * Compensating a transfer whose status is neither PENDING, FAILED_PUBLISH
   * nor the new-transfer status (DONE, say) leaves the status as it is, so a
   * second run credits the merchant a second time.
   */
  lemma CompensatingSettledTransferCreditsTwice(
    s: DbState, merchantCode: string, request: TransferRequest, amount: Money, i: int)
    requires IsFirstWithRef(s.transfers, request.partnerReferenceNo, i)
    requires s.transfers[i].status !in {StatusPending, StatusFailedPublish, MsgPendingTransfer}
    requires merchantCode in s.accounts
    ensures
      var noFaults := CompensationFaults(false, false, false, false);
      var first := PublishFailureOutcome(s, merchantCode, request, amount, noFaults);
      var second := PublishFailureOutcome(first.state, merchantCode, request, amount, noFaults);
      && first.err.None? && second.err.None?
      && second.state.accounts[merchantCode] == s.accounts[merchantCode] + 2 * amount
      && |second.state.ledger| == |s.ledger| + 2
  {
    var noFaults := CompensationFaults(false, false, false, false);
    var first := PublishFailureOutcome(s, merchantCode, request, amount, noFaults);
    var id := s.transfers[i].id;
    StatusUpdateKeepsFirstWithRef(s.transfers, id, StatusFailedPublish, request.partnerReferenceNo, i);
    assert first.state.transfers == SetStatusWherePending(s.transfers, id, StatusFailedPublish);
    assert first.state.transfers[i] == s.transfers[i];
  }
}

=== FILE: store.dfy ===
/**
 * The durable store: merchant account balances, transfers, recipients, the
 * ledger (account statements), fee settings and bank routing rows.
 * Row order in a sequence is insertion (primary-key) order.
 */
module Store {
  import opened Money
  import opened Entities

  /** A snapshot of every table. */
  datatype DbState = DbState(
    accounts: map<string, Money>,
    transfers: seq<Transaction>,
    recipients: seq<DataRecipient>,
    ledger: seq<AccountStatement>,
    feeTable: seq<FeeSettings>,
    partnerTable: seq<BankConfig>)

  class Database {
    /** merchant_accounts: balance per merchant code (merchant codes are unique). */
    var accounts: map<string, Money>
    var transfers: seq<Transaction>
    var recipients: seq<DataRecipient>
    /** account_statement: append-only. */
    var ledger: seq<AccountStatement>
    var feeTable: seq<FeeSettings>
    var partnerTable: seq<BankConfig>

    constructor (initial: DbState)
      ensures State() == initial
    {
      accounts, transfers, recipients := initial.accounts, initial.transfers, initial.recipients;
      ledger, feeTable, partnerTable := initial.ledger, initial.feeTable, initial.partnerTable;
    }

    function State(): DbState
      reads this
    {
      DbState(accounts, transfers, recipients, ledger, feeTable, partnerTable)
    }

    /** Puts every table back as it was in the snapshot: the abort of a store transaction. */
    method Restore(snapshot: DbState)
      modifies this
      ensures State() == snapshot
    {
      accounts, transfers, recipients := snapshot.accounts, snapshot.transfers, snapshot.recipients;
      ledger, feeTable, partnerTable := snapshot.ledger, snapshot.feeTable, snapshot.partnerTable;
    }
  }
}

=== FILE: transfer_redis_service.dfy ===
/**
 * The cache service: warms the fee and balance hashes from the store, reads
 * and writes fee settings, and debits or refunds a merchant's cached balance
 * under a per-merchant lock.
 */
module RedisService {
  import opened Common
  import opened Money
  import opened Entities
  import opened Indexing
  import opened Store
  import opened BalanceRepo
  import opened FeeSettingRepo
  import opened RedisRepo

  /** A listing of the accounts is empty exactly when there are no accounts. */
  lemma ListingEmptyIff(rows: seq<MerchantBalance>, accounts: map<string, Money>)
    requires IsListing(rows, accounts)
    ensures |rows| == 0 <==> |accounts| == 0
  {
    if |rows| > 0 {
      assert rows[0].merchantCode in accounts;
    }
    if |accounts| > 0 {
      var m :| m in accounts;
    }
  }

  /** Writing a listing of the accounts makes every merchant's field read back as its stored balance. */
  lemma LoadedBalanceReadsStore(before: map<string, string>, rows: seq<MerchantBalance>, accounts: map<string, Money>, m: string)
    requires IsListing(rows, accounts)
    requires m in accounts
    ensures m in before + IndexBy(rows, MerchantCodeOf, BalanceTextOf)
    ensures ParseMoney((before + IndexBy(rows, MerchantCodeOf, BalanceTextOf))[m]) == Some(accounts[m])
  {
    var i :| 0 <= i < |rows| && rows[i].merchantCode == m;
    assert MerchantCodeOf(rows[i]) == m;
    IndexByKeys(rows, MerchantCodeOf, BalanceTextOf, m);
    IndexByEntryFromRow(rows, MerchantCodeOf, BalanceTextOf, m);
    MoneyRoundTrip(accounts[m]);
  }

  /** The fields a balance load writes are exactly the stored merchants. */
  lemma LoadedBalanceKeys(rows: seq<MerchantBalance>, accounts: map<string, Money>)
    requires IsListing(rows, accounts)
    ensures IndexBy(rows, MerchantCodeOf, BalanceTextOf).Keys == accounts.Keys
  {
    forall m | m in IndexBy(rows, MerchantCodeOf, BalanceTextOf) ensures m in accounts {
      IndexByKeys(rows, MerchantCodeOf, BalanceTextOf, m);
    }
    forall m | m in accounts ensures m in IndexBy(rows, MerchantCodeOf, BalanceTextOf) {
      LoadedBalanceReadsStore(map[], rows, accounts, m);
    }
  }

  /** The last queued command on a key, when there is one. */
  lemma {:induction false} LastCommandOn(cmds: seq<HSetCommand>, key: string) returns (i: nat)
    requires exists j :: 0 <= j < |cmds| && cmds[j].key == key
    ensures i < |cmds| && cmds[i].key == key
    ensures forall j :: i < j < |cmds| ==> cmds[j].key != key
  {
    var n := |cmds| - 1;
    if cmds[n].key == key {
      return n;
    }
    var j :| 0 <= j < |cmds| && cmds[j].key == key;
    assert cmds[..n][j] == cmds[j];
    i := LastCommandOn(cmds[..n], key);
    assert cmds[..n][i] == cmds[i];
  }

  /**
   * After the fee table is loaded, a key that some table row carries reads
   * back as one of those rows; when (merchant, channel) is unique in the
   * table, as that row.
   */
  lemma LoadedFeeReadsTableRow(hashes: map<string, map<string, string>>, table: seq<FeeSettings>, k: nat)
    requires k < |table|
    requires forall j :: 0 <= j < |table| && FeeKey(table[j].merchantCode, table[j].channel) == FeeKey(table[k].merchantCode, table[k].channel) ==>
      table[j] == table[k]
    ensures
      var after := ApplyAll(hashes, FeeCommands(SortByMerchant(table)));
      var key := FeeKey(table[k].merchantCode, table[k].channel);
      key in after && DecodeFee(after[key], table[k].merchantCode, table[k].channel) == table[k]
  {
    var sorted := SortByMerchant(table);
    SortByMerchantCorrect(table);
    var key := FeeKey(table[k].merchantCode, table[k].channel);
    assert table[k] in multiset(sorted);
    var s :| 0 <= s < |sorted| && sorted[s] == table[k];
    var cmds := FeeCommands(sorted);
    FeeCommandKeys(sorted);
    assert cmds[s].key == key;
    var i := LastCommandOn(cmds, key);
    FeeListLastWins(hashes, sorted, i, table[k].merchantCode, table[k].channel);
    assert sorted[i] in multiset(table);
    var j :| 0 <= j < |table| && table[j] == sorted[i];
  }

  /** A cache debit: the hash afterwards, the balance returned and the error, if any. */
  datatype DebitResult = DebitResult(hash: map<string, string>, balance: Money, err: Option<Error>)

  /**
   * The debit of a merchant's cached balance under its lock: 0 and an error
   * when the lock, the read or the write fails; -1 and an error when the
   * balance does not cover the amount; otherwise the reduced balance, which is
   * written back in place of the old one.
   */
  function CacheDebit(hash: map<string, string>, merchantCode: string, amount: Money, lockFails: bool, readError: bool, writeError: bool)
    : (r: DebitResult)
    ensures r.err.Some? ==> r.hash == hash && (r.balance == 0 || r.balance == -1)
  {
    if lockFails then DebitResult(hash, 0, Some(LockNotAcquired))
    else match LookupBalance(hash, merchantCode, readError)
      case Err(e) => DebitResult(hash, 0, Some(e))
      case Ok(current) =>
        if current < amount then DebitResult(hash, -1, Some(InsufficientBalance))
        else
          var newBalance := current - amount;
          if newBalance < 0 then DebitResult(hash, -1, Some(InsufficientBalance))
          else if writeError then DebitResult(hash, 0, Some(ServerError))
          else DebitResult(hash[merchantCode := FormatMoney(newBalance)], newBalance, None)
  }

  /**
   * What a cache debit answers: the lock, read and write failures leave the
   * hash alone; a balance short of the amount is refused with -1; otherwise
   * the merchant's field reads back as the reduced balance and nothing else
   * changes.
   */
  lemma CacheDebitOutcome(hash: map<string, string>, merchantCode: string, amount: Money, lockFails: bool, readError: bool, writeError: bool)
    ensures var r := CacheDebit(hash, merchantCode, amount, lockFails, readError, writeError);
      && (lockFails ==> r == DebitResult(hash, 0, Some(LockNotAcquired)))
      && (!lockFails && (readError || BalanceField(hash, merchantCode).None?) ==>
            r.balance == 0 && r.err.Some? && r.hash == hash)
      && (!lockFails && !readError && BalanceField(hash, merchantCode).Some? ==>
            var current := BalanceField(hash, merchantCode).value;
            && (current < amount ==> r == DebitResult(hash, -1, Some(InsufficientBalance)))
            && (current >= amount && writeError ==> r == DebitResult(hash, 0, Some(ServerError)))
            && (current >= amount && !writeError ==>
                  && r.err.None?
                  && r.balance == current - amount
                  && BalanceField(r.hash, merchantCode) == Some(r.balance)))
      && (r.err.None? ==> r.balance >= 0 && merchantCode in hash && r.hash.Keys == hash.Keys)
      && (forall m :: m != merchantCode && m in hash ==> r.hash[m] == hash[m])
  {
    var r := CacheDebit(hash, merchantCode, amount, lockFails, readError, writeError);
    if r.err.None? {
      WrittenBalanceReads(hash, merchantCode, r.balance);
    }
  }

  /** The refund of a merchant's cached balance under its lock. */
  function CacheRefund(hash: map<string, string>, merchantCode: string, amount: Money, lockFails: bool, writeError: bool): (r: CacheWrite)
    ensures lockFails ==> r == CacheWrite(hash, Some(LockNotAcquired))
    ensures !lockFails ==> r == IncrementField(hash, merchantCode, amount, writeError)
    ensures r.err.Some? ==> r.hash == hash
  {
    if lockFails then CacheWrite(hash, Some(LockNotAcquired))
    else IncrementField(hash, merchantCode, amount, writeError)
  }

  /**
   * A successful debit followed by a successful refund of the same amount
   * gives the merchant back the balance it had, and leaves every other
   * merchant's field as it was.
   */
  lemma DebitThenRefundRestores(
    hash: map<string, string>, merchantCode: string, amount: Money, lockFails: bool, readError: bool, writeError: bool)
    requires CacheDebit(hash, merchantCode, amount, lockFails, readError, writeError).err.None?
    ensures
      var refunded := CacheRefund(CacheDebit(hash, merchantCode, amount, lockFails, readError, writeError).hash, merchantCode, amount, false, false);
      && refunded.err.None?
      && BalanceField(refunded.hash, merchantCode) == BalanceField(hash, merchantCode)
      && refunded.hash.Keys == hash.Keys
      && (forall m :: m != merchantCode && m in hash ==> refunded.hash[m] == hash[m])
  {
    var debit := CacheDebit(hash, merchantCode, amount, lockFails, readError, writeError);
    CacheDebitOutcome(hash, merchantCode, amount, lockFails, readError, writeError);
    RefundAfterDebitReadsBack(hash, merchantCode, amount, debit);
    RefundAfterDebitKeepsOthers(hash, merchantCode, amount, debit);
  }

  /** The refunded field reads as it did before the debit. */
  lemma RefundAfterDebitReadsBack(hash: map<string, string>, merchantCode: string, amount: Money, debit: DebitResult)
    requires debit.err.None? && BalanceField(hash, merchantCode).Some?
    requires BalanceField(debit.hash, merchantCode) == Some(BalanceField(hash, merchantCode).value - amount)
    ensures
      var refunded := CacheRefund(debit.hash, merchantCode, amount, false, false);
      refunded.err.None? && BalanceField(refunded.hash, merchantCode) == BalanceField(hash, merchantCode)
  {
    IncrementFieldReadsBack(debit.hash, merchantCode, amount);
  }

  /** A refund after a debit leaves the key set and every other merchant's field as they were. */
  lemma RefundAfterDebitKeepsOthers(hash: map<string, string>, merchantCode: string, amount: Money, debit: DebitResult)
    requires merchantCode in hash && debit.hash.Keys == hash.Keys
    requires forall m :: m != merchantCode && m in hash ==> debit.hash[m] == hash[m]
    ensures
      var refunded := CacheRefund(debit.hash, merchantCode, amount, false, false);
      && (refunded.err.None? ==> refunded.hash.Keys == hash.Keys)
      && (forall m :: m != merchantCode && m in hash ==> refunded.hash[m] == hash[m])
  {
  }

  class TransferRedisService {
    const redis: RedisRepository
    const db: Database

    constructor (redis: RedisRepository, db: Database)
      ensures this.redis == redis && this.db == db
    {
      this.redis, this.db := redis, db;
    }

    /** Loads every fee setting, ordered by merchant code, into the cache in one transaction. */
    method LoadFeeSetting(storeError: bool, execError: bool) returns (err: Option<Error>)
      modifies redis`feeHashes
      ensures storeError ==> err == Some(ServerError) && redis.feeHashes == old(redis.feeHashes)
      ensures !storeError && |db.feeTable| == 0 ==> err == Some(EmptyList) && redis.feeHashes == old(redis.feeHashes)
      ensures !storeError && |db.feeTable| > 0 && execError ==>
        err == Some(ServerError) && redis.feeHashes == old(redis.feeHashes)
      ensures !storeError && |db.feeTable| > 0 && !execError ==>
        err.None? && redis.feeHashes == ApplyAll(old(redis.feeHashes), FeeCommands(SortByMerchant(db.feeTable)))
    {
      var feeList := FindAll(db.feeTable, storeError);
      if feeList.Err? {
        return Some(feeList.error);
      }
      assert |multiset(feeList.value)| == |multiset(db.feeTable)|;
      err := redis.SetListFee(feeList.value, execError);
    }

    /** Loads every merchant balance into the `balance` hash. */
    method LoadBalance(storeError: bool, execError: bool) returns (err: Option<Error>)
      modifies redis`balanceHash
      ensures storeError ==> err == Some(ServerError) && redis.balanceHash == old(redis.balanceHash)
      ensures !storeError && |db.accounts| == 0 ==> err == Some(EmptyList) && redis.balanceHash == old(redis.balanceHash)
      ensures !storeError && |db.accounts| > 0 && execError ==>
        err == Some(ServerError) && redis.balanceHash == old(redis.balanceHash)
      ensures !storeError && |db.accounts| > 0 && !execError ==>
        && err.None?
        && redis.balanceHash.Keys == old(redis.balanceHash).Keys + db.accounts.Keys
        && (forall m :: m in db.accounts ==> redis.CachedBalance(m) == Some(db.accounts[m]))
        && (forall m :: m in old(redis.balanceHash) && m !in db.accounts ==> redis.balanceHash[m] == old(redis.balanceHash)[m])
    {
      var balanceList := FindAllBalances(db, storeError);
      if balanceList.Err? {
        return Some(ServerError);
      }
      ListingEmptyIff(balanceList.value, db.accounts);
      ghost var before := redis.balanceHash;
      err := redis.SetBalance(balanceList.value, execError);
      if err.None? {
        LoadedBalanceKeys(balanceList.value, db.accounts);
        forall m | m in db.accounts ensures redis.CachedBalance(m) == Some(db.accounts[m]) {
          LoadedBalanceReadsStore(before, balanceList.value, db.accounts, m);
        }
      }
    }

    /** The cached fee setting of (merchant, channel); any cache error is passed on. */
    function GetFeeSetting(merchantCode: string, channel: string, serverError: bool): (r: Result<FeeSettings>)
      reads redis
      ensures r.Ok? <==> !serverError && FeeKey(merchantCode, channel) in redis.feeHashes
                         && |redis.feeHashes[FeeKey(merchantCode, channel)]| > 0
      ensures serverError ==> r == Err(ServerError)
      ensures !serverError && r.Err? ==> r == Err(NotFound)
      ensures r.Ok? ==> r.value.merchantCode == merchantCode && r.value.channel == channel
      ensures r.Ok? ==> r.value == DecodeFee(redis.feeHashes[FeeKey(merchantCode, channel)], merchantCode, channel)
    {
      redis.FindByCodeAndChannel(merchantCode, channel, serverError)
    }

    method SetFeeSetting(feeSetting: FeeSettings, writeError: bool) returns (err: Option<Error>)
      modifies redis`feeHashes
      ensures writeError ==> err == Some(ServerError) && redis.feeHashes == old(redis.feeHashes)
      ensures !writeError ==>
        && err.None?
        && redis.feeHashes == HSet(old(redis.feeHashes), FeeKey(feeSetting.merchantCode, feeSetting.channel), EncodeFee(feeSetting))
      ensures !writeError ==> GetFeeSetting(feeSetting.merchantCode, feeSetting.channel, false) == Ok(feeSetting)
    {
      err := redis.SetFee(feeSetting, writeError);
      if err.None? {
        var key := FeeKey(feeSetting.merchantCode, feeSetting.channel);
        var data := redis.feeHashes[key];
        assert FieldTotalCharge in data;
        DecodeEncodedFee(data, feeSetting, feeSetting.merchantCode, feeSetting.channel);
      }
    }

    /**
     * Takes the merchant's lock, reads the cached balance and, when it
     * covers the amount, writes back the reduced balance. Returns 0 with an
     * error when the lock, the read or the write fails, and -1 with an error
     * when the balance is too small.
     */
    method DebitBalance(merchantCode: string, amount: Money, lockFails: bool, readError: bool, writeError: bool)
      returns (balance: Money, err: Option<Error>)
      modifies redis`balanceHash
      ensures DebitResult(redis.balanceHash, balance, err) ==
        CacheDebit(old(redis.balanceHash), merchantCode, amount, lockFails, readError, writeError)
    {
      if lockFails {
        return 0, Some(LockNotAcquired);
      }
      var currentBalance := redis.FindByMerchantCode(merchantCode, readError);
      assert currentBalance == LookupBalance(redis.balanceHash, merchantCode, readError);
      if currentBalance.Err? {
        return 0, Some(currentBalance.error);
      }
      if currentBalance.value < amount {
        return -1, Some(InsufficientBalance);
      }
      var newBalance := currentBalance.value - amount;
      if newBalance < 0 {
        return -1, Some(InsufficientBalance);
      }
      ghost var before := redis.balanceHash;
      var e := redis.UpdateBalance(merchantCode, FormatMoney(newBalance), writeError);
      if e.Some? {
        return 0, e;
      }
      assert redis.balanceHash == before[merchantCode := FormatMoney(newBalance)];
      return newBalance, None;
    }

    /** Takes the merchant's lock and adds the amount back to the cached balance. */
    method RefundBalance(merchantCode: string, amount: Money, lockFails: bool, writeError: bool) returns (err: Option<Error>)
      modifies redis`balanceHash
      ensures CacheWrite(redis.balanceHash, err) == CacheRefund(old(redis.balanceHash), merchantCode, amount, lockFails, writeError)
    {
      if lockFails {
        return Some(LockNotAcquired);
      }
      err := redis.RefundBalance(merchantCode, amount, writeError);
    }
  }
}

=== FILE: transfer_repository.dfy ===
/** Inserting, finding and conditionally updating rows of the transaction table. */
module TransferRepo {
  import opened Common
  import opened Entities
  import opened Constants
  import opened Store

  /** Row i is the first one carrying the partner reference. */
  predicate IsFirstWithRef(rows: seq<Transaction>, partnerReferenceNo: string, i: int)
  {
    && 0 <= i < |rows|
    && rows[i].partnerReferenceNo == partnerReferenceNo
    && forall j :: 0 <= j < i ==> rows[j].partnerReferenceNo != partnerReferenceNo
  }

  /**
   * The id and status of the first transfer carrying the partner reference;
   * the zero TransferTemp (id 0, empty status) when there is none, which is
   * what a scan that matches no row leaves in its destination.
   */
  function FirstByPartnerRef(rows: seq<Transaction>, partnerReferenceNo: string): (r: TransferTemp)
    ensures (forall i :: 0 <= i < |rows| ==> rows[i].partnerReferenceNo != partnerReferenceNo) ==>
      r == TransferTemp(0, "")
    ensures forall i :: IsFirstWithRef(rows, partnerReferenceNo, i) ==> r == TransferTemp(rows[i].id, rows[i].status)
  {
    if rows == [] then TransferTemp(0, "")
    else if rows[0].partnerReferenceNo == partnerReferenceNo then TransferTemp(rows[0].id, rows[0].status)
    else
      var r := FirstByPartnerRef(rows[1..], partnerReferenceNo);
      assert forall i :: IsFirstWithRef(rows, partnerReferenceNo, i) ==> IsFirstWithRef(rows[1..], partnerReferenceNo, i - 1);
      r
  }

  /** `UPDATE transaction SET status = s WHERE id = id AND status = 'PENDING'`. */
  function SetStatusWherePending(rows: seq<Transaction>, id: int, status: string): (r: seq<Transaction>)
    ensures |r| == |rows|
    ensures forall i :: 0 <= i < |rows| && rows[i].id == id && rows[i].status == StatusPending ==>
      r[i] == rows[i].(status := status)
    ensures forall i :: 0 <= i < |rows| && !(rows[i].id == id && rows[i].status == StatusPending) ==>
      r[i] == rows[i]
  {
    seq(|rows|, i requires 0 <= i < |rows| =>
      if rows[i].id == id && rows[i].status == StatusPending then rows[i].(status := status) else rows[i])
  }

  /** An update whose id matches no PENDING row changes nothing. */
  lemma UpdateWithoutPendingMatchIsNoOp(rows: seq<Transaction>, id: int, status: string)
    requires forall i :: 0 <= i < |rows| ==> !(rows[i].id == id && rows[i].status == StatusPending)
    ensures SetStatusWherePending(rows, id, status) == rows
  {
  }

  class TransferRepository {
    const db: Database

    constructor (db: Database)
      ensures this.db == db
    {
      this.db := db;
    }

    /** Inserts a transfer; the store assigns the next id. */
    method Save(transfer: Transaction, storeError: bool) returns (saved: Transaction, err: Option<Error>)
      modifies db`transfers
      ensures storeError ==> err == Some(ServerError) && db.transfers == old(db.transfers)
      ensures !storeError ==>
        && err.None?
        && saved == transfer.(id := |old(db.transfers)| + 1)
        && db.transfers == old(db.transfers) + [saved]
    {
      if storeError {
        return transfer, Some(ServerError);
      }
      saved := transfer.(id := |db.transfers| + 1);
      db.transfers := db.transfers + [saved];
      err := None;
    }

    /** `SELECT id, status ... WHERE partner_reference_no = ref`. */
    function FindByRefNo(partnerReferenceNo: string, storeError: bool): (r: Result<TransferTemp>)
      reads db
      ensures storeError <==> r.Err?
      ensures r.Ok? ==> r.value == FirstByPartnerRef(db.transfers, partnerReferenceNo)
    {
      if storeError then Err(ServerError) else Ok(FirstByPartnerRef(db.transfers, partnerReferenceNo))
    }

    /** Changes the status only of a PENDING row with that id; otherwise succeeds without a change. */
    method Update(id: int, status: string, storeError: bool) returns (err: Option<Error>)
      modifies db`transfers
      ensures storeError ==> err == Some(ServerError) && db.transfers == old(db.transfers)
      ensures !storeError ==> err.None? && db.transfers == SetStatusWherePending(old(db.transfers), id, status)
    {
      if storeError {
        return Some(ServerError);
      }
      db.transfers := SetStatusWherePending(db.transfers, id, status);
      err := None;
    }

    /** A nil transaction handle gives back this same repository. */
    method WithTransaction(tx: Database?) returns (r: TransferRepository)
      ensures tx == null ==> r == this
      ensures tx != null ==> fresh(r) && r.db == tx
    {
      if tx == null {
        return this;
      }
      r := new TransferRepository(tx);
    }
  }
}

=== FILE: transfer_service.dfy ===
/**
 * The transfer saga: fee lookup with a store fallback, the cache debit, the
 * all-or-nothing store commit, the publish to the destination bank's topic,
 * and the compensations that follow a failed commit or a failed publish.
 *
 * The whole request is specified by the pure function Saga over a World
 * (cache hashes, store snapshot, published messages); the imperative
 * TransferService.TransferRequest is proved equal to it, and the lemmas at
 * the end state what the saga does on each path.
 */
module TransferSaga {
  import opened Common
  import opened Money
  import opened Entities
  import opened Constants
  import opened Store
  import opened BalanceRepo
  import opened TransferRepo
  import opened FeeSettingRepo
  import opened RedisRepo
  import opened RedisService
  import opened PartnerService
  import opened PersistenceManager

  /* ---------------- Amounts, references and responses ---------------- */

  /** The request amount as a number; text that does not parse is an invalid-amount error. */
  function ParseAmount(amount: string): (r: Result<Money>)
    ensures r.Ok? <==> ParseMoney(amount).Some?
    ensures r.Ok? ==> r.value == ParseMoney(amount).value
    ensures r.Err? ==> r.error == InvalidAmount
  {
    match ParseMoney(amount)
    case Some(v) => Ok(v)
    case None => Err(InvalidAmount)
  }

  /** The amount reserved: the fee's total charge plus the amount, an unparsable amount counting as 0. */
  function SumAmount(fee: FeeSettings, amount: string): (total: Money)
    ensures ParseAmount(amount).Err? ==> total == fee.totalCharge
    ensures ParseAmount(amount).Ok? ==> total == fee.totalCharge + ParseAmount(amount).value
  {
    var amountSend := match ParseAmount(amount) case Ok(v) => v case Err(_) => 0;
    fee.totalCharge + amountSend
  }

  /** An amount written with two decimals is reserved in full on top of the fee. */
  lemma SumAmountOfFormatted(fee: FeeSettings, amount: Money)
    ensures SumAmount(fee, FormatMoney(amount)) == fee.totalCharge + amount
  {
    MoneyRoundTrip(amount);
  }

  function Min(a: int, b: int): int { if a < b then a else b }

  /** The channel, cut to its first three characters when it is longer. */
  function ChannelPrefix(channel: string): (p: string)
    ensures |p| == Min(|channel|, 3)
    ensures p == channel[..|p|]
  {
    if |channel| < 3 then channel else channel[0..3]
  }

  /**
   * channel prefix, "-", destination bank code, "-", timestamp text. The
   * timestamp is a parameter: the clock is not part of this model.
   */
  function GeneratedReferenceNumber(request: TransferRequest, timestamp: string): (r: string)
    ensures
      var channel := request.additionalInfo.channel;
      var bank := request.beneficiaryBankCode;
      var n := Min(|channel|, 3);
      && |r| == n + |bank| + |timestamp| + 2
      && r[..n] == channel[..n]
      && r[n] == '-'
      && r[n + 1..n + 1 + |bank|] == bank
      && r[n + 1 + |bank|] == '-'
      && r[n + 2 + |bank|..] == timestamp
  {
    var channel := request.additionalInfo.channel;
    var destinationBank := request.beneficiaryBankCode;
    var p := ChannelPrefix(channel);
    var r := p + "-" + destinationBank + "-" + timestamp;
    assert r[|p| + 2 + |destinationBank|..] == timestamp;
    r
  }

  const FieldChannel := "channel"
  const FieldServiceFee := "service_fee"
  const FieldBalanceAfter := "balance_after"

  /**
   * The response: with a fee, additional info carries the fee's channel, its
   * total charge with two decimals (which reads back as the same amount) and
   * the balance-after text; without one, it is empty.
   */
  function HandleTransferResponse(
    responseCode: string, responseMessage: string, referenceNumber: string, partnerReferenceNo: string,
    balanceAfter: string, fee: Option<FeeSettings>, transactionDate: string): (r: TransferResponse)
    ensures r.responseCode == responseCode && r.responseMessage == responseMessage
    ensures r.referenceNumber == referenceNumber && r.partnerReferenceNo == partnerReferenceNo
    ensures r.transactionDate == transactionDate
    ensures fee.None? ==> r.additionalInfo == map[]
    ensures fee.Some? ==>
      && r.additionalInfo.Keys == {FieldChannel, FieldServiceFee, FieldBalanceAfter}
      && r.additionalInfo[FieldChannel] == fee.value.channel
      && ParseMoney(r.additionalInfo[FieldServiceFee]) == Some(fee.value.totalCharge)
      && r.additionalInfo[FieldBalanceAfter] == balanceAfter
  {
    var additionalInfo :=
      if fee.Some? then
        MoneyRoundTrip(fee.value.totalCharge);
        map[FieldChannel := fee.value.channel, FieldServiceFee := FormatMoney(fee.value.totalCharge),
            FieldBalanceAfter := balanceAfter]
      else map[];
    TransferResponse(responseCode, responseMessage, referenceNumber, partnerReferenceNo, transactionDate, additionalInfo)
  }

  /* ---------------- Publishing ---------------- */

  /** A published transfer trigger: topic, key (the partner reference) and payload. */
  datatype Message = Message(topic: string, key: string, externalId: string, request: TransferRequest)

  datatype PublishResult = PublishResult(published: seq<Message>, err: Option<Error>)

  /** Publishing to the topic the destination bank routes to, keyed by the partner reference. */
  function PublishOutcome(
    published: seq<Message>, routing: map<string, BankConfig>, request: TransferRequest, externalId: string, fails: bool)
    : (r: PublishResult)
    ensures fails ==> r == PublishResult(published, Some(PublishFailed))
    ensures !fails ==> r.err.None? && |r.published| == |published| + 1 && r.published[..|published|] == published
    ensures !fails ==> r.published[|published|].topic == Route(routing, request.beneficiaryBankCode).kafkaTopic
    ensures !fails ==> r.published[|published|].key == request.partnerReferenceNo
  {
    if fails then PublishResult(published, Some(PublishFailed))
    else
      var topic := Route(routing, request.beneficiaryBankCode);
      PublishResult(published + [Message(topic.kafkaTopic, request.partnerReferenceNo, externalId, request)], None)
  }

  class MessageBus {
    var published: seq<Message>

    constructor ()
      ensures published == []
    {
      published := [];
    }

    method Publish(topic: string, key: string, externalId: string, request: TransferRequest, fails: bool) returns (err: Option<Error>)
      modifies this
      ensures fails ==> err == Some(PublishFailed) && published == old(published)
      ensures !fails ==> err.None? && published == old(published) + [Message(topic, key, externalId, request)]
    {
      if fails {
        return Some(PublishFailed);
      }
      published := published + [Message(topic, key, externalId, request)];
      err := None;
    }
  }

  /* ---------------- Store transactions ---------------- */

  /** Which of the store writes of PersistTransfer fail. */
  datatype PersistFaults = PersistFaults(
    recipientFails: bool, transferFails: bool, debitFails: bool, transferLedgerFails: bool, feeLedgerFails: bool)

  /** Which of the store steps of the publish-failure compensation fail. */
  datatype CompensationFaults = CompensationFaults(findFails: bool, updateFails: bool, creditFails: bool, refundLedgerFails: bool)

  datatype StoreResult = StoreResult(state: DbState, err: Option<Error>)

  /**
   * PersistTransfer as one store transaction: a recipient row, a transfer row,
   * the conditional account debit and the two ledger rows, all committed or
   * none.
   */
  function PersistOutcome(
    s: DbState, request: TransferRequest, fee: FeeSettings, merchantCode: string,
    referenceNumber: string, totalAmount: Money, pf: PersistFaults): StoreResult
  {
    match ParseAmount(request.amount.value)
    case Err(e) => StoreResult(s, Some(e))
    case Ok(amountTransfer) =>
      if pf.recipientFails || pf.transferFails || pf.debitFails then StoreResult(s, Some(ServerError))
      else if merchantCode !in s.accounts || s.accounts[merchantCode] < totalAmount then StoreResult(s, Some(InsufficientBalance))
      else if pf.transferLedgerFails || pf.feeLedgerFails then StoreResult(s, Some(ServerError))
      else StoreResult(Committed(s, request, fee, merchantCode, referenceNumber, totalAmount, amountTransfer), None)
  }

  /** The store once a transfer's five writes have all gone through. */
  function Committed(
    s: DbState, request: TransferRequest, fee: FeeSettings, merchantCode: string,
    referenceNumber: string, totalAmount: Money, amountTransfer: Money): DbState
    requires merchantCode in s.accounts
  {
    var recipient := NewRecipient(|s.recipients| + 1, request);
    var transfer := NewTransferRecord(recipient, request, fee, merchantCode, referenceNumber, amountTransfer).(id := |s.transfers| + 1);
    var newBalance := s.accounts[merchantCode] - totalAmount;
    s.(recipients := s.recipients + [recipient],
       transfers := s.transfers + [transfer],
       accounts := s.accounts[merchantCode := newBalance],
       ledger := s.ledger + [
         TransferLedgerRow(transfer.id, request, newBalance, merchantCode, amountTransfer),
         AdminFeeLedgerRow(transfer.id, request, newBalance, fee, merchantCode)])
  }

  /**
   * The store transaction of a transfer commits exactly when the amount
   * parses, no write fails and the account covers the total; it then debits
   * the account by the total without making it negative, appends one
   * transfer row carrying the new-transfer status and two debit rows that
   * together record the amount and the fee, and changes nothing else.
   */
  lemma PersistOutcomeSpec(
    s: DbState, request: TransferRequest, fee: FeeSettings, merchantCode: string,
    referenceNumber: string, totalAmount: Money, pf: PersistFaults)
    ensures var r := PersistOutcome(s, request, fee, merchantCode, referenceNumber, totalAmount, pf);
      r.err.Some? ==> r.state == s
    ensures var r := PersistOutcome(s, request, fee, merchantCode, referenceNumber, totalAmount, pf);
      r.err.None? <==>
      && ParseAmount(request.amount.value).Ok?
      && !pf.recipientFails && !pf.transferFails && !pf.debitFails
      && merchantCode in s.accounts && s.accounts[merchantCode] >= totalAmount
      && !pf.transferLedgerFails && !pf.feeLedgerFails
    ensures var r := PersistOutcome(s, request, fee, merchantCode, referenceNumber, totalAmount, pf);
      r.err.None? ==>
      var newBalance := s.accounts[merchantCode] - totalAmount;
      var t := |s.transfers|;
      var l := |s.ledger|;
      && newBalance >= 0
      && r.state.accounts == s.accounts[merchantCode := newBalance]
      && r.state.recipients == s.recipients + [NewRecipient(|s.recipients| + 1, request)]
      && |r.state.transfers| == t + 1 && r.state.transfers[..t] == s.transfers
      && r.state.transfers[t].id == t + 1
      && r.state.transfers[t].status == MsgPendingTransfer
      && r.state.transfers[t].partnerReferenceNo == request.partnerReferenceNo
      && |r.state.ledger| == l + 2 && r.state.ledger[..l] == s.ledger
      && r.state.ledger[l].amount + r.state.ledger[l + 1].amount == -(ParseAmount(request.amount.value).value + fee.totalCharge)
      && r.state.ledger[l].balanceAfter == r.state.ledger[l + 1].balanceAfter == newBalance
      && r.state.feeTable == s.feeTable && r.state.partnerTable == s.partnerTable
  {
  }

  /**
   * handlePublishFailure as one store transaction: find the transfer by its
   * partner reference; FAILED_PUBLISH is an idempotent success; the status a
   * new transfer is stored with is refused as an invalid state transition;
   * any other status is set to FAILED_PUBLISH (which only takes effect on a
   * PENDING row), the merchant is credited and a refund row is written.
   */
  function PublishFailureOutcome(
    s: DbState, merchantCode: string, request: TransferRequest, amount: Money, cf: CompensationFaults): StoreResult
  {
    if cf.findFails then StoreResult(s, Some(ServerError))
    else
      var transfer := FirstByPartnerRef(s.transfers, request.partnerReferenceNo);
      if transfer.status == StatusFailedPublish then StoreResult(s, None)
      else if transfer.status == MsgPendingTransfer then StoreResult(s, Some(InvalidStateTransition(transfer.status)))
      else CompensationWrites(s, transfer.id, merchantCode, request, amount, cf)
  }

  /**
   * The writes of the compensation, past its status guards: mark the transfer
   * FAILED_PUBLISH (which only takes effect on a PENDING row), credit the
   * merchant and write the refund row.
   */
  function CompensationWrites(
    s: DbState, transferId: int, merchantCode: string, request: TransferRequest, amount: Money, cf: CompensationFaults): StoreResult
  {
    if cf.updateFails then StoreResult(s, Some(ServerError))
    else if cf.creditFails then StoreResult(s, Some(ServerError))
    else if merchantCode !in s.accounts then StoreResult(s, Some(InsufficientBalance))
    else if cf.refundLedgerFails then StoreResult(s, Some(ServerError))
    else
      var newBalance := s.accounts[merchantCode] + amount;
      StoreResult(
        s.(transfers := SetStatusWherePending(s.transfers, transferId, StatusFailedPublish),
           accounts := s.accounts[merchantCode := newBalance],
           ledger := s.ledger + [RefundLedgerRow(transferId, request, amount, newBalance, merchantCode)]),
        None)
  }

  /**
   * The compensation changes nothing unless it succeeds past the status
   * guards; a transfer already FAILED_PUBLISH is left alone, one with the
   * new-transfer status is refused, and any other is marked, credited and
   * given its refund row.
   */
  lemma PublishFailureOutcomeSpec(
    s: DbState, merchantCode: string, request: TransferRequest, amount: Money, cf: CompensationFaults)
    ensures var r := PublishFailureOutcome(s, merchantCode, request, amount, cf);
      r.err.Some? ==> r.state == s
    ensures var r := PublishFailureOutcome(s, merchantCode, request, amount, cf);
      cf.findFails ==> r == StoreResult(s, Some(ServerError))
    ensures var r := PublishFailureOutcome(s, merchantCode, request, amount, cf);
      !cf.findFails ==>
      var transfer := FirstByPartnerRef(s.transfers, request.partnerReferenceNo);
      && (transfer.status == StatusFailedPublish ==> r == StoreResult(s, None))
      && (transfer.status == MsgPendingTransfer ==> r == StoreResult(s, Some(InvalidStateTransition(transfer.status))))
      && (transfer.status != StatusFailedPublish && transfer.status != MsgPendingTransfer ==>
            (r.err.None? <==> !cf.updateFails && !cf.creditFails && merchantCode in s.accounts && !cf.refundLedgerFails))
      && (transfer.status != StatusFailedPublish && transfer.status != MsgPendingTransfer && r.err.None? ==>
            var newBalance := s.accounts[merchantCode] + amount;
            && r.state.transfers == SetStatusWherePending(s.transfers, transfer.id, StatusFailedPublish)
            && r.state.accounts == s.accounts[merchantCode := newBalance]
            && r.state.ledger == s.ledger + [RefundLedgerRow(transfer.id, request, amount, newBalance, merchantCode)]
            && r.state.recipients == s.recipients)
  {
    if !cf.findFails {
      var transfer := FirstByPartnerRef(s.transfers, request.partnerReferenceNo);
      if transfer.status != StatusFailedPublish && transfer.status != MsgPendingTransfer {
        CompensationWritesSpec(s, transfer.id, merchantCode, request, amount, cf);
      }
    }
  }

  /**
   * The compensation writes change nothing on error, succeed exactly when no
   * step fails and the merchant has an account, and then mark, credit and
   * append the refund row and nothing else.
   */
  lemma CompensationWritesSpec(
    s: DbState, transferId: int, merchantCode: string, request: TransferRequest, amount: Money, cf: CompensationFaults)
    ensures var r := CompensationWrites(s, transferId, merchantCode, request, amount, cf);
      && (r.err.Some? ==> r.state == s)
      && (r.err.None? <==> !cf.updateFails && !cf.creditFails && merchantCode in s.accounts && !cf.refundLedgerFails)
      && (r.err.None? ==>
            var newBalance := s.accounts[merchantCode] + amount;
            && r.state.transfers == SetStatusWherePending(s.transfers, transferId, StatusFailedPublish)
            && r.state.accounts == s.accounts[merchantCode := newBalance]
            && r.state.ledger == s.ledger + [RefundLedgerRow(transferId, request, amount, newBalance, merchantCode)]
            && r.state.recipients == s.recipients
            && r.state.feeTable == s.feeTable && r.state.partnerTable == s.partnerTable)
  {
  }

  /* ---------------- The saga ---------------- */

  /** Everything a request can change: the cache hashes, the store and the published messages. */
  datatype World = World(
    balances: map<string, string>, fees: map<string, map<string, string>>, store: DbState, published: seq<Message>)

  /** Which infrastructure calls of one request fail (lock, cache, store and bus). */
  datatype Faults = Faults(
    feeCacheError: bool, feeStoreError: bool, writeBackError: bool,
    debitLockFails: bool, debitReadError: bool, debitWriteError: bool,
    persist: PersistFaults,
    refundLockFails: bool, refundWriteError: bool,
    publishFails: bool,
    compensation: CompensationFaults)

  datatype SagaResult = SagaResult(world: World, response: TransferResponse)

  /** The fee used: the cached one, else the store's (the zero fee when the store has no row), else none. */
  function FeeLookup(w: World, merchantCode: string, channel: string, f: Faults): (fee: Option<FeeSettings>)
    ensures ReadFee(w.fees, merchantCode, channel, f.feeCacheError).Ok? ==>
      fee == Some(ReadFee(w.fees, merchantCode, channel, f.feeCacheError).value)
    ensures ReadFee(w.fees, merchantCode, channel, f.feeCacheError).Err? ==>
      (fee.None? <==> FindByCodeAndChannel(w.store.feeTable, merchantCode, channel, f.feeStoreError).Err?)
    ensures fee.None? <==> ReadFee(w.fees, merchantCode, channel, f.feeCacheError).Err? && f.feeStoreError
  {
    var cached := ReadFee(w.fees, merchantCode, channel, f.feeCacheError);
    if cached.Ok? then Some(cached.value)
    else
      var stored := FindByCodeAndChannel(w.store.feeTable, merchantCode, channel, f.feeStoreError);
      if stored.Ok? then Some(stored.value) else None
  }

  /** The fee hashes after the lookup: a fee found only in the store is written back, unless that write fails. */
  function FeesAfterLookup(w: World, merchantCode: string, channel: string, f: Faults): map<string, map<string, string>>
  {
    var cached := ReadFee(w.fees, merchantCode, channel, f.feeCacheError);
    var stored := FindByCodeAndChannel(w.store.feeTable, merchantCode, channel, f.feeStoreError);
    if cached.Ok? || stored.Err? || f.writeBackError then w.fees
    else HSet(w.fees, FeeKey(stored.value.merchantCode, stored.value.channel), EncodeFee(stored.value))
  }

  /** Every failure after the fee lookup answers with this response. */
  function InternalError(request: TransferRequest, fee: FeeSettings, transactionDate: string): TransferResponse
  {
    HandleTransferResponse(ErrInternalServerError, MsgInternalServerError, "", request.partnerReferenceNo, "0",
      Some(fee), transactionDate)
  }

  /** One transfer request, end to end. */
  function Saga(
    w: World, request: TransferRequest, merchantCode: string, externalId: string,
    timestamp: string, transactionDate: string, routing: map<string, BankConfig>, f: Faults): SagaResult
  {
    var channel := request.additionalInfo.channel;
    var partnerRef := request.partnerReferenceNo;
    match FeeLookup(w, merchantCode, channel, f)
    case None =>
      SagaResult(w, HandleTransferResponse(ErrDataNotFound, MsgInternalServerError, "", partnerRef, "0",
        Some(ZeroFee), transactionDate))
    case Some(fee) =>
      var total := SumAmount(fee, request.amount.value);
      var debit := CacheDebit(w.balances, merchantCode, total, f.debitLockFails, f.debitReadError, f.debitWriteError);
      var w1 := w.(fees := FeesAfterLookup(w, merchantCode, channel, f), balances := debit.hash);
      if debit.balance == 0 then
        SagaResult(w1, HandleTransferResponse(ErrBalanceNotAvailable, MsgBalanceNotAvailable, "", partnerRef, "0",
          Some(fee), transactionDate))
      else if debit.balance == -1 then
        SagaResult(w1, HandleTransferResponse(ErrInsufficientFunds, MsgInsufficientFunds, "", partnerRef, "0",
          Some(fee), transactionDate))
      else if debit.err.Some? then
        SagaResult(w1, InternalError(request, fee, transactionDate))
      else
        AfterDebit(w1, request, fee, merchantCode, externalId, total, debit.balance, timestamp, transactionDate, routing, f)
  }

  /** The saga once the cache debit has succeeded with a non-zero balance. */
  function AfterDebit(
    w: World, request: TransferRequest, fee: FeeSettings, merchantCode: string, externalId: string,
    total: Money, balance: Money, timestamp: string, transactionDate: string, routing: map<string, BankConfig>, f: Faults)
    : SagaResult
  {
    var reference := GeneratedReferenceNumber(request, timestamp);
    var persisted := PersistOutcome(w.store, request, fee, merchantCode, reference, total, f.persist);
    if persisted.err.Some? then
      var refund := CacheRefund(w.balances, merchantCode, total, f.refundLockFails, f.refundWriteError);
      SagaResult(w.(balances := refund.hash), InternalError(request, fee, transactionDate))
    else
      var w2 := w.(store := persisted.state);
      var pub := PublishOutcome(w.published, routing, request, externalId, f.publishFails);
      if pub.err.Some? then AfterPublishFailure(w2, request, fee, merchantCode, total, transactionDate, f)
      else
        SagaResult(w2.(published := pub.published),
          HandleTransferResponse(PendingTransfer, MsgPendingTransfer, reference, request.partnerReferenceNo,
            FormatMoney(balance), Some(fee), transactionDate))
  }

  /**
   * The saga once the trigger could not be published: the cache is credited
   * back and, when that succeeds, the store transfer is compensated; the
   * answer is an internal error either way.
   */
  function AfterPublishFailure(
    w: World, request: TransferRequest, fee: FeeSettings, merchantCode: string, total: Money, transactionDate: string,
    f: Faults): SagaResult
  {
    var refund := CacheRefund(w.balances, merchantCode, total, f.refundLockFails, f.refundWriteError);
    if refund.err.Some? then SagaResult(w, InternalError(request, fee, transactionDate))
    else
      var compensated := PublishFailureOutcome(w.store, merchantCode, request, total, f.compensation);
      SagaResult(w.(balances := refund.hash, store := compensated.state), InternalError(request, fee, transactionDate))
  }

  /* ---------------- The service ---------------- */

  class TransferService {
    const db: Database
    const redis: RedisRepository
    const redisService: TransferRedisService
    const partner: BankPartner
    const bus: MessageBus
    const transferRepo: TransferRepository
    const merchantRepo: BalanceRepository

    /** The collaborators share the one cache and the one store. */
    ghost predicate Valid()
    {
      && redisService.redis == redis
      && transferRepo.db == db
      && merchantRepo.db == db
    }

    constructor (
      db: Database, redisService: TransferRedisService, partner: BankPartner, bus: MessageBus,
      transferRepo: TransferRepository, merchantRepo: BalanceRepository)
      requires transferRepo.db == db && merchantRepo.db == db
      ensures Valid()
      ensures this.db == db && this.redis == redisService.redis && this.redisService == redisService
      ensures this.partner == partner && this.bus == bus
    {
      this.db, this.redis, this.redisService := db, redisService.redis, redisService;
      this.partner, this.bus := partner, bus;
      this.transferRepo, this.merchantRepo := transferRepo, merchantRepo;
    }

    function CurrentWorld(): World
      reads redis, db, bus
    {
      World(redis.balanceHash, redis.feeHashes, db.State(), bus.published)
    }

    /** The saga as the service runs it, step by step. */
    method TransferRequest(
      request: TransferRequest, merchantCode: string, externalId: string,
      timestamp: string, transactionDate: string, f: Faults)
      returns (response: TransferResponse)
      requires Valid()
      modifies redis`balanceHash, redis`feeHashes, db, bus
      ensures SagaResult(CurrentWorld(), response) ==
        Saga(old(CurrentWorld()), request, merchantCode, externalId, timestamp, transactionDate, partner.bankCache, f)
    {
      var channel := request.additionalInfo.channel;
      var partnerRef := request.partnerReferenceNo;
      var found := GetFee(merchantCode, channel, f);
      if found.None? {
        return HandleTransferResponse(ErrDataNotFound, MsgInternalServerError, "", partnerRef, "0",
          Some(ZeroFee), transactionDate);
      }
      var fee := found.value;

      var total := SumAmount(fee, request.amount.value);
      var balance, err := redisService.DebitBalance(merchantCode, total, f.debitLockFails, f.debitReadError, f.debitWriteError);
      if balance == 0 {
        return HandleTransferResponse(ErrBalanceNotAvailable, MsgBalanceNotAvailable, "", partnerRef, "0",
          Some(fee), transactionDate);
      }
      if balance == -1 {
        return HandleTransferResponse(ErrInsufficientFunds, MsgInsufficientFunds, "", partnerRef, "0",
          Some(fee), transactionDate);
      }
      if err.Some? {
        return InternalError(request, fee, transactionDate);
      }
      response := ContinueAfterDebit(request, fee, merchantCode, externalId, total, balance, timestamp, transactionDate, f);
    }

    /**
     * The fee from the cache; on a cache miss, from the store, written back
     * to the cache with the write's error ignored.
     */
    method GetFee(merchantCode: string, channel: string, f: Faults) returns (fee: Option<FeeSettings>)
      requires Valid()
      modifies redis`feeHashes
      ensures fee == FeeLookup(old(CurrentWorld()), merchantCode, channel, f)
      ensures redis.feeHashes == FeesAfterLookup(old(CurrentWorld()), merchantCode, channel, f)
    {
      var cached := redisService.GetFeeSetting(merchantCode, channel, f.feeCacheError);
      if cached.Ok? {
        return Some(cached.value);
      }
      var feeSettingDb := FindByCodeAndChannel(db.feeTable, merchantCode, channel, f.feeStoreError);
      if feeSettingDb.Err? {
        return None;
      }
      var writeBackErr := redisService.SetFeeSetting(feeSettingDb.value, f.writeBackError);
      fee := Some(feeSettingDb.value);
    }

    /** Persist, publish and compensate, once the cache debit has gone through. */
    method ContinueAfterDebit(
      request: TransferRequest, fee: FeeSettings, merchantCode: string, externalId: string,
      total: Money, balance: Money, timestamp: string, transactionDate: string, f: Faults)
      returns (response: TransferResponse)
      requires Valid()
      modifies redis`balanceHash, db, bus
      ensures SagaResult(CurrentWorld(), response) ==
        AfterDebit(old(CurrentWorld()), request, fee, merchantCode, externalId, total, balance, timestamp, transactionDate,
          partner.bankCache, f)
    {
      var referenceNumber := GeneratedReferenceNumber(request, timestamp);
      var persistErr := PersistTransfer(request, fee, merchantCode, referenceNumber, balance, total, f.persist);
      if persistErr.Some? {
        var refundErr := redisService.RefundBalance(merchantCode, total, f.refundLockFails, f.refundWriteError);
        if refundErr.Some? {
          return InternalError(request, fee, transactionDate);
        }
        return InternalError(request, fee, transactionDate);
      }
      var publishErr := PublishMessage(request, externalId, f.publishFails);
      if publishErr.Some? {
        response := RefundAndCompensate(request, fee, merchantCode, total, transactionDate, f);
        return;
      }
      response := HandleTransferResponse(PendingTransfer, MsgPendingTransfer, referenceNumber, request.partnerReferenceNo,
        FormatMoney(balance), Some(fee), transactionDate);
    }

    /** After a failed publish: refund the cache, then compensate the store transfer. */
    method RefundAndCompensate(
      request: TransferRequest, fee: FeeSettings, merchantCode: string, total: Money, transactionDate: string, f: Faults)
      returns (response: TransferResponse)
      requires Valid()
      modifies redis`balanceHash, db
      ensures SagaResult(CurrentWorld(), response) ==
        AfterPublishFailure(old(CurrentWorld()), request, fee, merchantCode, total, transactionDate, f)
    {
      var refundErr := redisService.RefundBalance(merchantCode, total, f.refundLockFails, f.refundWriteError);
      if refundErr.Some? {
        return InternalError(request, fee, transactionDate);
      }
      var compensationErr := HandlePublishFailure(merchantCode, request, total, f.compensation);
      if compensationErr.Some? {
        return InternalError(request, fee, transactionDate);
      }
      return InternalError(request, fee, transactionDate);
    }

    /** Publishes the trigger to the topic of the destination bank. */
    method PublishMessage(request: TransferRequest, externalId: string, fails: bool) returns (err: Option<Error>)
      modifies bus
      ensures PublishResult(bus.published, err) == PublishOutcome(old(bus.published), partner.bankCache, request, externalId, fails)
    {
      var topic := partner.GetBankConfig(request.beneficiaryBankCode);
      var key := request.partnerReferenceNo;
      err := bus.Publish(topic.kafkaTopic, key, externalId, request, fails);
    }

    /** The five store writes in one transaction: on any error the store is put back as it was. */
    method PersistTransfer(
      request: TransferRequest, feeCharge: FeeSettings, merchantCode: string, referenceNumber: string,
      balance: Money, totalAmount: Money, pf: PersistFaults)
      returns (err: Option<Error>)
      requires Valid()
      modifies db
      ensures StoreResult(db.State(), err) ==
        PersistOutcome(old(db.State()), request, feeCharge, merchantCode, referenceNumber, totalAmount, pf)
      ensures err.Some? ==> db.State() == old(db.State())
    {
      var snapshot := db.State();
      err := PersistSteps(request, feeCharge, merchantCode, referenceNumber, totalAmount, pf);
      if err.Some? {
        db.Restore(snapshot);
      }
    }

    /** The body of the PersistTransfer transaction; its partial writes on error are undone by the caller. */
    method PersistSteps(
      request: TransferRequest, feeCharge: FeeSettings, merchantCode: string, referenceNumber: string,
      totalAmount: Money, pf: PersistFaults)
      returns (err: Option<Error>)
      requires Valid()
      modifies db
      ensures var outcome := PersistOutcome(old(db.State()), request, feeCharge, merchantCode, referenceNumber, totalAmount, pf);
        err == outcome.err && (err.None? ==> db.State() == outcome.state)
    {
      ghost var s := db.State();
      var transferTx := transferRepo.WithTransaction(db);
      var accountTx := merchantRepo.WithTransaction(db);
      var pm := new TransferPersistenceManager(db, transferTx, accountTx);

      var amountTransfer := ParseAmount(request.amount.value);
      if amountTransfer.Err? {
        return Some(amountTransfer.error);
      }
      var recipient := pm.CreateRecipient(request, pf.recipientFails);
      if recipient.Err? {
        return Some(recipient.error);
      }
      var transfer := pm.CreateTransfer(recipient.value, request, feeCharge, merchantCode, referenceNumber, amountTransfer.value,
        pf.transferFails);
      if transfer.Err? {
        return Some(transfer.error);
      }
      err := DebitAndRecord(pm, transfer.value.id, request, feeCharge, merchantCode, totalAmount, amountTransfer.value, pf);
      if err.None? {
        ghost var c := Committed(s, request, feeCharge, merchantCode, referenceNumber, totalAmount, amountTransfer.value);
        assert transfer.value.id == |s.transfers| + 1;
        assert db.recipients == c.recipients && db.transfers == c.transfers;
        assert db.accounts == c.accounts;
        assert db.ledger == c.ledger;
      }
    }

    /** The conditional debit and the two ledger rows of a transfer, the last steps of its transaction. */
    method DebitAndRecord(
      pm: TransferPersistenceManager, transferId: int, request: TransferRequest, feeCharge: FeeSettings,
      merchantCode: string, totalAmount: Money, amountTransfer: Money, pf: PersistFaults)
      returns (err: Option<Error>)
      requires pm.db == db && pm.merchantRepo.db == db
      modifies db`accounts, db`ledger
      ensures pf.debitFails ==> err == Some(ServerError)
      ensures !pf.debitFails && (merchantCode !in old(db.accounts) || old(db.accounts)[merchantCode] < totalAmount) ==>
        err == Some(InsufficientBalance)
      ensures !pf.debitFails && merchantCode in old(db.accounts) && old(db.accounts)[merchantCode] >= totalAmount ==>
        (err.None? <==> !pf.transferLedgerFails && !pf.feeLedgerFails) && (err.Some? ==> err == Some(ServerError))
      ensures err.None? ==>
        var newBalance := old(db.accounts)[merchantCode] - totalAmount;
        && db.accounts == old(db.accounts)[merchantCode := newBalance]
        && db.ledger == old(db.ledger) + [
             TransferLedgerRow(transferId, request, newBalance, merchantCode, amountTransfer),
             AdminFeeLedgerRow(transferId, request, newBalance, feeCharge, merchantCode)]
    {
      var newBalance, debitErr := pm.DebitMerchant(merchantCode, totalAmount, pf.debitFails);
      if debitErr.Some? {
        return debitErr;
      }
      err := pm.CreateTransferLedger(transferId, request, newBalance, merchantCode, amountTransfer, pf.transferLedgerFails);
      if err.Some? {
        return err;
      }
      err := pm.CreateAdminFeeLedger(transferId, request, newBalance, feeCharge, merchantCode, pf.feeLedgerFails);
    }

    /** The store-side compensation of a failed publish, in one transaction. */
    method HandlePublishFailure(merchantCode: string, request: TransferRequest, amount: Money, cf: CompensationFaults)
      returns (err: Option<Error>)
      requires Valid()
      modifies db
      ensures StoreResult(db.State(), err) == PublishFailureOutcome(old(db.State()), merchantCode, request, amount, cf)
    {
      var snapshot := db.State();
      err := CompensationSteps(merchantCode, request, amount, cf);
      if err.Some? {
        db.Restore(snapshot);
      }
    }

    /** The body of the compensation transaction. */
    method CompensationSteps(merchantCode: string, request: TransferRequest, amount: Money, cf: CompensationFaults)
      returns (err: Option<Error>)
      requires Valid()
      modifies db
      ensures var outcome := PublishFailureOutcome(old(db.State()), merchantCode, request, amount, cf);
        err == outcome.err && (err.None? ==> db.State() == outcome.state)
    {
      var transferTx := transferRepo.WithTransaction(db);
      var accountTx := merchantRepo.WithTransaction(db);
      var pm := new TransferPersistenceManager(db, transferTx, accountTx);

      var transfer := pm.FindTransferByPartnerReference(request.partnerReferenceNo, cf.findFails);
      if transfer.Err? {
        return Some(transfer.error);
      }
      if transfer.value.status == StatusFailedPublish {
        return None;
      }
      if transfer.value.status == MsgPendingTransfer {
        return Some(InvalidStateTransition(transfer.value.status));
      }
      err := CompensationWriteSteps(pm, transfer.value.id, merchantCode, request, amount, cf);
    }

    /** Marks the transfer, credits the merchant and writes the refund row, stopping at the first error. */
    method CompensationWriteSteps(
      pm: TransferPersistenceManager, transferId: int, merchantCode: string, request: TransferRequest, amount: Money,
      cf: CompensationFaults)
      returns (err: Option<Error>)
      requires pm.db == db && pm.transferRepo.db == db && pm.merchantRepo.db == db
      modifies db`transfers, db`accounts, db`ledger
      ensures var outcome := CompensationWrites(old(db.State()), transferId, merchantCode, request, amount, cf);
        err == outcome.err && (err.None? ==> db.State() == outcome.state)
    {
      var e := pm.UpdateTransferStatus(transferId, StatusFailedPublish, cf.updateFails);
      if e.Some? {
        return e;
      }
      var newBalance, creditErr := pm.CreditMerchant(merchantCode, amount, cf.creditFails);
      if creditErr.Some? {
        return creditErr;
      }
      e := pm.CreateRefundLedger(transferId, request, amount, newBalance, merchantCode, cf.refundLedgerFails);
      if e.Some? {
        return e;
      }
      return None;
    }
  }
}
